=== FILE: README.md ===
# google-music-spotify-importer, modelled in Dafny

The importer copies a Google Play Music library into Spotify. It works in two halves.

- **Extraction.** It reads the user's playlists and owned songs from the source service. It keeps the playlists that still have tracks, and it deduplicates the songs into albums. Both results are cached as JSON files in a state directory.
- **Building.** For each track and album it runs a cascade of progressively looser catalog searches, after normalising the names with `clean_name`. It caches matches and misses in four more JSON files. It then creates the playlists and saves the albums on the destination account in batches.

The model covers the decision logic of `main.py`, one module per concern:

- `Text`: Python's `str.strip()` and `clean_name`, including the exact behaviour of the greedy regex `(.*)\s+(\(|feat)` under `re.match`.
- `Catalog`: tracks, albums, playlists, catalog items, and the search queries.
  - The destination catalog is a function from a query to an outcome: either an exception, or a list of items.
- `Matcher`: the search cascades `find_spotify_track` (full, then no year, then no album) and `find_spotify_album` (full, then no year).
- `MatchCache`: `get_spotify_tracks` and `get_spotify_album`.
  - Each cache file is a map, and an absent file is the empty map.
  - The `limit` loop is modelled as written.
- `LibraryBuilder`: `create_spotify_playlists`, `create_spotify_playlist`, `create_spotify_albums` and `put_spotify_albums`.
  - Calls that change the destination account are recorded in an effect log.
  - The saved-album library is the set of album ids it holds.
- `Extractor`: `extract_google_track`, `get_google_playlists` and `get_google_albums`.
  - The source service's answers are parameters.
  - The deduplication loop is a method, checked against an independent reference definition.
- `Migration`: the top-level sequence of `main`: extract playlists, extract albums, build playlists, build albums.

Files are read and written in memory. Searches, the id the service gives a new playlist (`mint`) and the login outcome are parameters.

## Model

| member | source | states |
|---|---|---|
| Text.Strip | main.py:95 | The result is a trimmed contiguous slice of the input, and only whitespace lies before and after it. |
| Text.StripUnique | main.py:95 | Whitespace around a trimmed core always strips to exactly that core. |
| Text.StripIdempotent | main.py:95 | Stripping twice is stripping once. |
| Text.StripAppendSpace | main.py:95 | Appending whitespace does not change the stripped result. |
| Text.GreedyCut | main.py:90 | The greedy `(.*)` backtracks to the largest position at which a whitespace run followed by `(` or `feat` matches, and no larger position matches. If nothing matches, no position up to the bound matches. |
| Text.RunEndsAtCutPoint | main.py:90 | Wherever the whitespace-run pattern matches, it ends at a whitespace character directly followed by `(` or `feat`, at or after that position. |
| Text.MatchCutIsLastCutPoint | main.py:90 | For a newline-free name, group 1 ends exactly at the last whitespace that is followed by `(` or `feat`. |
| Text.CleanName | main.py:86-95 | The result is never longer than the name, and it has no whitespace at either end. |
| Text.CleanNameWithoutMarker | main.py:90-95 | If no whitespace is followed by `(` or `feat`, the result is the stripped name. |
| Text.CleanNameCutsAtLastMarker | main.py:90-95 | Otherwise a newline-free name is cut before its last such whitespace and then stripped, so the result is at most that long. |
| Text.CutAnywhereInRun | main.py:90-95 | Cutting anywhere inside a whitespace run gives the same stripped result, so the cut may be placed at the run's start. |
| Text.CleanNameFirstPass | main.py:90-95 | `"A (x) B (y)"` cleans to `"A (x) B"`. |
| Text.CleanNameSecondPass | main.py:90-95 | `"A (x) B"` cleans to `"A"`, so cleaning is not idempotent. |
| Matcher.RunCascade | main.py:107-128 | The searches made are a prefix of the stages, in order, and every search before the last answered empty. The cascade stops early only after a hit or an exception. It finds an item exactly when the last search hit, and then it is that search's item 0. |
| Matcher.CascadeFindsFirstHit | main.py:107-122 | After empty answers only, a hit at stage i yields its item 0, an exception yields nothing, and an empty answer defers to the later stages. |
| Matcher.CascadeAllEmpty | main.py:107-124 | If every stage answers empty, every stage is searched and nothing is found. |
| Matcher.CascadeMissIff | main.py:107-128 | Nothing is found if and only if every stage answered empty, or some stage raised after only empty answers. |
| Matcher.CleanTrack | main.py:101-105 | The year is kept. Title, album and artist each come out with no whitespace at either end and no longer than before. The result is what `find_spotify_track` leaves in the track, so a recorded miss carries these fields. |
| Matcher.FindSpotifyTrack | main.py:98-128 | The track is returned cleaned. One to three searches are made, in the order full, no year, no album, on the cleaned fields. Every search before the last answered with no item. A match exists exactly when the last search hit, and it is item 0 of that search. |
| Matcher.FindTrackFullHit | main.py:107-110 | If the full search hits, it is the only search, and its item 0 is returned. |
| Matcher.FindTrackFallsBackToNoAlbum | main.py:107-122 | If only the no-album search hits, all three searches are made in order, and its item 0 is returned. |
| Matcher.FindTrackMissIff | main.py:98-128 | A track is unmatched exactly when all three searches were empty, or one raised after only empty answers. |
| Matcher.FindSpotifyAlbum | main.py:196-221 | One or two searches are made, with and then without the year, on the cleaned title and artist. Every search before the last answered with no item. A match exists exactly when the last search hit, and it is item 0 of that search. |
| Matcher.FindAlbumFallsBackToNoYear | main.py:205-215 | If only the no-year search hits, both searches are made, and its item 0 is returned. |
| MatchCache.Extend | main.py:56-60 | A match appends its id at the end of the ids and leaves the misses unchanged. A miss appends the cleaned track at the end of the misses and leaves the ids unchanged. |
| MatchCache.MatchTracks | main.py:55-60 | The ids plus the misses number exactly the tracks processed. |
| MatchCache.MatchTracksAppend | main.py:55-60 | Matching a concatenation concatenates both the ids and the misses, so source order is kept. |
| MatchCache.MatchTracksOne | main.py:56-60 | A single track goes to exactly one list: its match's id, or the cleaned track as a miss. |
| MatchCache.MatchTracksAllFound | main.py:55-60 | If every track is found, the ids are the matches' ids in source order, and there are no misses. |
| MatchCache.MatchTracksNoneFound | main.py:55-60 | If no track is found, there are no ids, and the misses are the cleaned tracks in source order. |
| MatchCache.TrackCacheHit | main.py:44-48 | There is never a hit under forced fetching, or without a resolved file. A hit serves a stored list with exactly one id per track. |
| MatchCache.ProcessedCount | main.py:62-64 | Without a limit every track is processed. With a limit 0 <= L < n, exactly L + 1 tracks are processed. A limit L >= n processes all n. A negative limit processes one track when there is at least one. |
| MatchCache.MatchPlaylist | main.py:52-64 | The loop, with its counter and early break, matches exactly the first ProcessedCount tracks. |
| MatchCache.GetSpotifyTracks | main.py:39-78 | A hit needs fetching not forced, the key present, and a cached list as long as the tracks. A hit returns the cached list and writes nothing. Otherwise the returned ids are written under the key. Every other key is kept, or dropped under forced fetching. The misses file always keeps its other keys and gains the key. The ids plus the misses number the processed tracks. Without a hit, the ids and the misses written under the key are exactly those of MatchTracks with the catalog lookup over the processed prefix, in order. |
| MatchCache.TracksStoreThenLoad | main.py:44-68 | A fresh run that found every track is served from the cache on the next run, whatever the catalog answers then. |
| MatchCache.TracksWithMissNeverCached | main.py:48-60 | A playlist whose fresh run missed a track is not a cache hit afterwards. |
| MatchCache.TracksOtherKeysKept | main.py:42-68 | Without forced fetching, the other playlists' cached entries survive the write. |
| MatchCache.TracksForceFetchKeepsOnlyKey | main.py:42-68 | Under forced fetching, the resolved file ends up holding only the current playlist. |
| MatchCache.GetSpotifyAlbum | main.py:158-193 | A cached id is returned exactly when fetching is not forced and the raw `title;artist` key is present; nothing is then searched or written. A fresh match stores its id under the key into the loaded map, which is empty under forced fetching, and every other loaded entry keeps its value. When the key is not served from the cache, the searches, the miss and the matched item are exactly those of `find_spotify_album`. A miss leaves the resolved file as it was and maps the key to itself in the misses file. |
| MatchCache.AlbumHitIgnoresCatalog | main.py:163-169 | A hit depends on the key alone: not on the catalog, and not on the year. |
| MatchCache.AlbumStoreThenLoad | main.py:163-180 | After a match, the next run returns the same id from the cache and searches nothing. |
| MatchCache.AlbumMissStaysUncached | main.py:171-191 | After a miss, the key is still not in the resolved file, and it is recorded as itself in the misses file. |
| LibraryBuilder.Chunks | main.py:33-36 | The chunks concatenate back to the input. They are non-empty and at most `size` long, and all but the last are exactly `size`. |
| LibraryBuilder.AddRequests | main.py:34-36 | There is one add-to-playlist request per chunk, in order, to the created playlist. |
| LibraryBuilder.AddRequestsCarryIds | main.py:34-36 | Together, the add requests carry exactly the concatenated chunks. |
| LibraryBuilder.PlaylistRequestsShape | main.py:30-36 | The first request creates a private playlist. Every later request adds at most 100 ids to it, and together they add exactly the ids, in order. |
| LibraryBuilder.CreateSpotifyPlaylist | main.py:30-36 | The stride-100 loop makes exactly the create request followed by one add request per 100-chunk. |
| LibraryBuilder.CreateOnePlaylist | main.py:20-27 | A playlist is created and filled with exactly the ids its cache step returned, and the run's requests add no other id. Those ids are also saved to the library, unbatched, exactly when its name is `favorites`. |
| LibraryBuilder.OnePlaylistAddsIds | main.py:20-35 | All of one playlist's requests, the favourites save included, add exactly its ids to it, in order. |
| LibraryBuilder.FreshPlaylistAllFound | main.py:20-23 | For an uncached playlist whose every track is found, the run's own requests add exactly the matches' ids to the destination playlist, in source order. |
| LibraryBuilder.FreshAllFoundIds | main.py:39-78 | For an uncached playlist whose every track is found, the cache step returns the matches' ids, in source order. |
| LibraryBuilder.OnePlaylistCreatesIt | main.py:23-32 | One playlist's requests create exactly that playlist. |
| LibraryBuilder.PlaylistsCreatedInOrder | main.py:20-23 | Every extracted playlist is created exactly once, in extraction order. |
| LibraryBuilder.FoldCreatesInOrder | main.py:20-23 | When each step creates exactly the playlist it is given, the run creates every playlist once, in order. |
| LibraryBuilder.PlaylistsSaveNoAlbums | main.py:20-35 | Creating the playlists saves no album. |
| LibraryBuilder.FoldSavesNoAlbums | main.py:20-23 | When no step saves an album, the run saves none. |
| LibraryBuilder.OnePlaylistSavesNoAlbums | main.py:20-35 | One playlist's requests save no album. |
| LibraryBuilder.PutRequestsCreateNothing | main.py:141-155 | Saving albums creates no playlist. |
| LibraryBuilder.LibraryAfterAddsSaved | main.py:146-152 | The library after saving is the starting library plus the ids of the albums the add requests carried. |
| LibraryBuilder.CreateSpotifyPlaylists | main.py:20-27 | No playlists means no requests, and the cache files are unchanged. Otherwise the first request creates the first playlist, private. |
| LibraryBuilder.FoldPlaylists | main.py:20-27 | Running the per-playlist step over no playlists makes no requests and leaves the files as they are. |
| LibraryBuilder.FoldPlaylistsAppend | main.py:20-27 | Running over a + b makes a's requests, then b's requests run on the files a leaves, numbered on from n + \|a\|. |
| LibraryBuilder.FoldPlaylistsOne | main.py:20-27 | Running over one playlist is that playlist's step. |
| LibraryBuilder.CreateSpotifyPlaylistsAppend | main.py:20-27 | Playlists after the first are handled like a fresh run that starts from the cache files the earlier playlists left, with later playlist numbers. |
| LibraryBuilder.Unsaved | main.py:147-150 | An album is kept if and only if it is in the slice and its id is not in the library. The result is empty exactly when the library holds every id. |
| LibraryBuilder.UnsavedAppend | main.py:148-150 | Filtering distributes over concatenation, so the kept albums stay in slice order, with repeats kept. |
| LibraryBuilder.UnsavedOne | main.py:149-150 | A single album is kept exactly when the library does not hold its id. |
| LibraryBuilder.PutBatches | main.py:144-154 | Each checked slice is the given batch. The library ends up extended by the added albums, and the count is the number of albums added. |
| LibraryBuilder.PutBatchesSavesUnsaved | main.py:144-154 | Each add call holds exactly the albums of its slice that the library lacked when the slice was checked, counting the earlier adds. |
| LibraryBuilder.PutRequests | main.py:146-152 | Each slice gets one contains check and at most one add call, starting with the first slice's check. No add call is made when no slice has anything to add. |
| LibraryBuilder.PutRequestsAppend | main.py:146-152 | The requests for slices a + b are those for a followed by those for b, so slice order is kept. |
| LibraryBuilder.PutRequestsOne | main.py:146-152 | One slice makes its contains check, then one add call for its unsaved ids if there are any. |
| LibraryBuilder.PutSpotifyAlbums | main.py:141-155 | The slices are non-empty, at most 50 long, and there is one per 50-chunk. |
| LibraryBuilder.AlbumBatchesOf120 | main.py:144-145 | 120 albums are checked in three requests: 50, 50 and 20. |
| LibraryBuilder.CheckedAreChunks | main.py:144-146 | The contains checks go over the batches exactly, once each, in order. |
| LibraryBuilder.PutCountIsAdded | main.py:151-155 | The printed count equals the number of albums the add calls carried. |
| LibraryBuilder.PutNothingWhenAllSaved | main.py:144-155 | If the library already holds every album, no add call is made, the count is 0, and the library is unchanged. |
| LibraryBuilder.MatchAlbums | main.py:131-136 | Misses are dropped, so there are at most as many matches as albums. |
| LibraryBuilder.MatchAlbumsOne | main.py:131-136 | One album keeps its match when the cache step found one and nothing otherwise. The album files are those the step leaves. |
| LibraryBuilder.MatchAlbumsAppend | main.py:131-136 | Matching a + b keeps a's matches, then b's matches resolved on the album files that a leaves. Every non-empty result is kept, in order. |
| LibraryBuilder.FoldAlbums | main.py:131-136 | Folding the album step over no albums keeps nothing and leaves the files as they are. |
| LibraryBuilder.FoldAlbumsAppend | main.py:131-136 | Folding over a + b folds over a, then over b from the files a leaves. |
| LibraryBuilder.FoldAlbumsOne | main.py:131-136 | Folding over one album is that album's step. |
| LibraryBuilder.AlbumStepsKeepAtMostOne | main.py:133-136 | Each album contributes at most one match. |
| LibraryBuilder.MatchAlbumsAllCached | main.py:131-136 | If every album's key is cached and fetching is not forced, the matches are the cached ids, in order, and the files are unchanged. |
| LibraryBuilder.CreateSpotifyAlbums | main.py:131-138 | The contains checks cover the matches exactly, in order, and the count is the number of albums added. |
| Extractor.ExtractGoogleTrack | main.py:224-234 | An entry gives a track exactly when it has one, and then with the same album, artist, year and title. |
| Extractor.ExtractTracks | main.py:258-261 | Nothing is extracted exactly when no entry has a track. |
| Extractor.ExtractTracksAppend | main.py:258-261 | Extraction distributes over concatenation, so entry order is kept. |
| Extractor.ExtractTracksOne | main.py:258-261 | One entry without a track yields nothing. One entry with a track yields that track's extracted fields. |
| Extractor.CleanPlaylists | main.py:251-266 | Every kept playlist has tracks. The result is empty exactly when no playlist has an extractable track. |
| Extractor.CleanPlaylistsAppend | main.py:252-266 | Filtering distributes over concatenation, so the kept playlists stay in source order. |
| Extractor.CleanPlaylistsOne | main.py:252-266 | A playlist is kept exactly when some entry has a track, and then under its name with its extracted tracks. |
| Extractor.GetGooglePlaylistsAsWritten | main.py:237-274 | The file is read exactly when it exists and fetching is not forced. The fetch path returns nothing. An exit has code 1. |
| Extractor.PlaylistsAsWrittenReturnNothing | main.py:269-274 | On a first run that finds playlists, the playlists are written but the caller receives nothing. |
| Extractor.GetGooglePlaylists | main.py:237-274 | The corrected version: the fetch path returns what it writes, namely the playlists that keep tracks. The process exits with code 1 exactly when it must fetch and either login fails or no playlist keeps a track. |
| Extractor.PlaylistsFetchThenLoad | main.py:241-274 | A fetching run returns a non-empty list, and it is what the next run reads back from the file it wrote. |
| Extractor.AlbumArtistOf | main.py:292-294 | `albumArtist` is used, unless it is missing or empty, in which case `artist` is used. |
| Extractor.DedupAlbums | main.py:289-297 | The loop with its set of seen names computes the reference deduplication: the first non-deleted song of each key, in input order. |
| Extractor.DistinctAlbumsFromFirstLive | main.py:295-297 | Every output album comes from the first non-deleted song of its key, so deleted songs never contribute. |
| Extractor.FirstLiveContributes | main.py:295-297 | The first non-deleted song of every key contributes its album. |
| Extractor.FirstOfKey | main.py:295-296 | Every non-deleted song has a first non-deleted song with the same key, at or before it. |
| Extractor.LiveSongCovered | main.py:291-297 | Every non-deleted song's key appears in the output, even when deleted songs with that key come first. |
| Extractor.DistinctAlbumsKeysDistinct | main.py:295-297 | The output keys are pairwise distinct. |
| Extractor.GetGoogleAlbums | main.py:277-302 | The file is read exactly when it exists and fetching is not forced. Otherwise the deduplicated albums are returned and written, or the process exits with code 1 when login fails (main.py:322). |
| Migration.RunFrom | main.py:350-359 | A failed playlist extraction aborts with its own exit code before anything else. Receiving no playlists never reaches the destination service. |
| Migration.FirstRunAsWrittenCrashes | main.py:350-358 | As written, a first run that logs in and finds playlists crashes before any destination call. The playlists and albums files are written (the albums from the deduplication when no albums file existed), and the match caches are untouched. |
| Migration.RunAsWritten | main.py:350-359 | As written, the destination service is reached only when the playlists come from an existing file. Every run that must fetch them aborts or crashes. |
| Migration.Run | main.py:350-359 | With the corrected extraction, no run crashes, and every abort has code 1. When a run finishes, both extraction files exist. |
| Migration.RunNeverCrashes | main.py:350-351 | With the corrected extraction, no run crashes. A run aborts with code 1 exactly when an extraction step must fetch and cannot. |
| Migration.RunCreatesEveryPlaylist | main.py:350-359 | With the corrected extraction, a finished run creates every extracted playlist exactly once, in extraction order; saving albums creates none. The library it leaves is the starting library plus the ids of the albums its add requests carried. |
| Migration.FirstRunCreatesFirstPlaylist | main.py:350-358 | With the corrected extraction, a first run writes both extraction files, and the first destination call creates the first extracted playlist. |

## Left out

- The Spotify and Google SDKs, OAuth (`get_google`, `prompt_for_user_token`) and the credential file. The login outcome is a parameter, and searches and account changes are an oracle and an effect log.
- JSON file I/O, `os.path.exists` and encodings. Files are in-memory maps, or `Option`s for the extraction files, and file-read errors are not modelled.
- `print`/`pprint` output and the exact query text, such as a literal `year:None`. Queries are a datatype with one constructor per search shape.
- Command-line parsing (main.py:327-348). `--favorites-playlist` is never applied (main.py:347), so the favourites name is the constant `favorites`. `--force-fetch` has no type, so any non-empty string given is truthy; the model takes the resulting boolean.
- `KeyError` on a playlist without a `name` or `tracks` key, on a playlist track without an `album`, `artist`, `year` or `title` key (main.py:230-233), and on a song without `album` (main.py:295). A song is also read for `artist` only when its `albumArtist` is missing or empty (main.py:292-294), and for `deleted` only when its key has not been seen, since `and` short-circuits (main.py:295); a missing key there raises too. The datatypes always hold these fields. A playlist track's year of `None` stands for a JSON null only; a missing `year` key there would raise, and the model does not cover that.
- A fresh album match is passed on as the whole catalog item, while a cache hit passes only the id string (main.py:169, 193). The model keeps both forms, and it assumes the "contains" and "add" calls identify either form by its id. Whether the service library accepts a whole album object in those calls lies outside `main.py`, and the model does not decide it.
- The login client is reused within one process (`google_client`, main.py:305-308). The model has one login outcome per run, as a parameter.
- The in-place cleaning of a track (main.py:101-105) shows up only in the recorded misses. The playlists file has already been written by then.
- Text.CleanNameCutsAtLastMarker: stated for names without a line break. With a line break, `.` stops the cut at the first line, which `Text.GreedyCut` and `Text.CleanName` model but no lemma characterises.
- Text.MatchCutIsLastCutPoint: stated for names without a line break, for the same reason.
- MatchCache.MatchPlaylist: takes the lookup function as a parameter. `MatchCache.GetSpotifyTracks` does not call this method; it uses the function `MatchCache.MatchTracks` with `find_spotify_track` on the given catalog. MatchPlaylist's contract proves the loop equal to MatchTracks on the processed prefix.
- LibraryBuilder.CreateSpotifyPlaylists: its own contract covers only the empty list and the first request. Its behaviour per playlist is stated by LibraryBuilder.CreateOnePlaylist, LibraryBuilder.FreshPlaylistAllFound and LibraryBuilder.PlaylistsCreatedInOrder. LibraryBuilder.CreateSpotifyPlaylistsAppend carries this over to every later playlist.
- LibraryBuilder.MatchAlbums: its own contract bounds the count only. How the results are collected is stated by LibraryBuilder.MatchAlbumsOne and LibraryBuilder.MatchAlbumsAppend, the cached case by LibraryBuilder.MatchAlbumsAllCached, and each step by MatchCache.GetSpotifyAlbum.
- Migration.RunFrom: its own contract covers only the abort and no-playlists paths. For the corrected run, Migration.RunNeverCrashes states when it aborts. Migration.RunCreatesEveryPlaylist states that a finished run creates every extracted playlist once, in order, and leaves the library as the starting library plus the saved albums' ids. Migration.FirstRunCreatesFirstPlaylist states what a first run does first. The contents of the album requests of a finished run are not restated at this level; LibraryBuilder.CreateSpotifyAlbums and its lemmas state them.
- `clean_name` is not idempotent, and no lemma claims it is. Text.CleanNameFirstPass and Text.CleanNameSecondPass exhibit a name that changes on a second pass.
- A key can be in both the resolved and the misses file at once, because misses are never pruned. No invariant claims otherwise.

## Findings

| source | as written | input that shows it | evidently intended | confidence | as-written member | corrected member |
|---|---|---|---|---|---|---|
| main.py:273-274 | On the fetch path, `get_google_playlists` writes the clean playlists and then falls off the end, returning `None`. `main` then iterates over `None` (main.py:358). | A first run: no `playlists.json`, login succeeds, and at least one playlist has a track. | Return `clean_playlists` after writing it, as `get_google_albums` does (main.py:302). | high, not executed | Extractor.GetGooglePlaylistsAsWritten | Extractor.GetGooglePlaylists |

=== FILE: catalog.dfy ===
/**
 * The records the program passes around, and the destination catalog's search
 * as the model sees it: a function from a structured query to the results the
 * service would answer with (or to an exception raised by the call).
 */
module Catalog {
  import opened Options

  /**
   * A release year. `None` is a JSON null; for a song it is also a missing
   * `year` key, which the program reads with `.get`. A playlist track without
   * the key makes the program raise, which is not modelled.
   */
  type Year = Option<int>

  /** A source track as extracted from the source service. */
  datatype Track = Track(title: string, artist: string, album: string, year: Year)

  /** A source album as extracted from the source service's song library. */
  datatype Album = Album(artist: string, album: string, year: Year)

  /** A source playlist after extraction: a name and its tracks in order. */
  datatype Playlist = Playlist(name: string, tracks: seq<Track>)

  /** An entry of the destination catalog as a search returns it. */
  datatype Item = Item(id: string, name: string)

  /**
   * The queries the matcher sends: `track:… artist:… album:… year:…` and its
   * two relaxations for tracks, `artist:… album:… year:…` and its relaxation
   * for albums. The exact query text is not modelled.
   */
  datatype Query =
    | TrackFull(title: string, artist: string, album: string, year: Year)
    | TrackNoYear(title: string, artist: string, album: string)
    | TrackNoAlbum(title: string, artist: string)
    | AlbumFull(artist: string, title: string, year: Year)
    | AlbumNoYear(artist: string, title: string)

  /** What one search call produced: an exception, or the (possibly empty) result items. */
  datatype SearchOutcome = Raised | Results(items: seq<Item>)

  /** The destination service's search, seen as a pure function of the query. */
  type Search = Query -> SearchOutcome

  /** The call returned at least one item. */
  predicate Hit(o: SearchOutcome) {
    o.Results? && |o.items| > 0
  }

  /** The call returned, but with no item. */
  predicate Empty(o: SearchOutcome) {
    o.Results? && |o.items| == 0
  }

  /** The run's settings: the destination user name and whether cached data is to be ignored. */
  datatype Config = Config(user: string, forceFetch: bool)
}

=== FILE: extractor.dfy ===
/**
 * The catalog extractor: `extract_google_track`, `get_google_playlists` and
 * `get_google_albums`.
 *
 * The source service's answers are parameters: whether the login succeeds,
 * the playlists with their entries, and the owned songs. A JSON extraction
 * file is `Some(contents)` when it exists and `None` when it does not.
 */
module Extractor {
  import opened Options
  import opened Catalog

  /** The metadata of a track inside a source playlist entry; `year` is `None` only for a JSON null. */
  datatype GoogleTrack = GoogleTrack(album: string, artist: string, year: Year, title: string)

  /** A source playlist entry; `track` is `None` when the entry has no `track` key. */
  datatype PlaylistEntry = PlaylistEntry(track: Option<GoogleTrack>)

  /** A source playlist with its raw entries. */
  datatype GooglePlaylist = GooglePlaylist(name: string, entries: seq<PlaylistEntry>)

  /** An owned song; `albumArtist` is `None` when the key is missing. */
  datatype GoogleSong = GoogleSong(albumArtist: Option<string>, artist: string, album: string, year: Year, deleted: bool)

  /** `extract_google_track`: entries without a track give nothing; the others keep album, artist, year and title. */
  function ExtractGoogleTrack(e: PlaylistEntry): (r: Option<Track>)
    ensures r.Some? <==> e.track.Some?
    ensures r.Some? ==> var t := e.track.value;
      r.value.title == t.title && r.value.artist == t.artist && r.value.album == t.album && r.value.year == t.year
  {
    match e.track
    case None => None
    case Some(t) => Some(Track(t.title, t.artist, t.album, t.year))
  }

  /** The extracted tracks of a playlist's entries, in order. */
  function ExtractTracks(entries: seq<PlaylistEntry>): (r: seq<Track>)
    ensures |r| <= |entries|
    ensures r == [] <==> forall i :: 0 <= i < |entries| ==> entries[i].track.None?
    decreases |entries|
  {
    if entries == [] then []
    else
      var rest := ExtractTracks(entries[1..]);
      assert forall i :: 1 <= i < |entries| ==> entries[i] == entries[1..][i - 1];
      match ExtractGoogleTrack(entries[0])
      case Some(t) => [t] + rest
      case None => rest
  }

  /** One entry contributes its track, as `extract_google_track` builds it, or nothing. */
  lemma ExtractTracksOne(e: PlaylistEntry)
    ensures ExtractTracks([e]) == if e.track.None? then [] else [ExtractGoogleTrack(e).value]
  {
    assert [e][1..] == [];
  }

  /** Entries with a track contribute it, in order; entries without one are dropped. */
  lemma {:induction false} ExtractTracksAppend(a: seq<PlaylistEntry>, b: seq<PlaylistEntry>)
    ensures ExtractTracks(a + b) == ExtractTracks(a) + ExtractTracks(b)
    decreases |a|
  {
    if a == [] {
      assert a + b == b;
    } else {
      assert (a + b)[1..] == a[1..] + b;
      ExtractTracksAppend(a[1..], b);
    }
  }

  /** The playlists that keep at least one track after extraction, in order. */
  function CleanPlaylists(raw: seq<GooglePlaylist>): (r: seq<Playlist>)
    ensures |r| <= |raw|
    ensures forall i :: 0 <= i < |r| ==> r[i].tracks != []
    ensures r == [] <==> forall i :: 0 <= i < |raw| ==> ExtractTracks(raw[i].entries) == []
    decreases |raw|
  {
    if raw == [] then []
    else
      var rest := CleanPlaylists(raw[1..]);
      assert forall i :: 1 <= i < |raw| ==> raw[i] == raw[1..][i - 1];
      var tracks := ExtractTracks(raw[0].entries);
      if tracks == [] then rest else [Playlist(raw[0].name, tracks)] + rest
  }

  /** Filtering distributes over concatenation, so the kept playlists stay in source order. */
  lemma {:induction false} CleanPlaylistsAppend(a: seq<GooglePlaylist>, b: seq<GooglePlaylist>)
    ensures CleanPlaylists(a + b) == CleanPlaylists(a) + CleanPlaylists(b)
    decreases |a|
  {
    if a == [] {
      assert a + b == b;
    } else {
      assert (a + b)[1..] == a[1..] + b;
      assert (a + b)[0] == a[0];
      CleanPlaylistsAppend(a[1..], b);
    }
  }

  /** A single playlist is kept, under its name with its extracted tracks, exactly when some entry has a track. */
  lemma CleanPlaylistsOne(p: GooglePlaylist)
    ensures CleanPlaylists([p]) ==
      if ExtractTracks(p.entries) == [] then [] else [Playlist(p.name, ExtractTracks(p.entries))]
  {
    assert [p][1..] == [];
  }

  /** The outcome of an extraction step: loaded from its file, fetched (returned and written), or process exit. */
  datatype Extracted<T> = Loaded(value: T) | Fetched(returned: Option<T>, written: T) | Exited(code: int) {
    /** What the caller receives, if anything. */
    function Returned(): Option<T>
      requires !Exited?
    {
      match this
      case Loaded(v) => Some(v)
      case Fetched(r, _) => r
    }
  }

  /** The cached extraction is used when its file exists and fetching is not forced. */
  predicate UseFile<T>(forceFetch: bool, file: Option<T>) {
    file.Some? && !forceFetch
  }

  /**
   * `get_google_playlists` as written: on the fetch path it writes the clean
   * playlists but returns nothing.
   */
  function GetGooglePlaylistsAsWritten(forceFetch: bool, file: Option<seq<Playlist>>, authenticated: bool, remote: seq<GooglePlaylist>): (r: Extracted<seq<Playlist>>)
    ensures UseFile(forceFetch, file) <==> r.Loaded?
    ensures r.Loaded? ==> r.value == file.value
    ensures r.Fetched? ==> r.returned == None
    ensures r.Exited? ==> r.code == 1
  {
    if UseFile(forceFetch, file) then Loaded(file.value)
    else if !authenticated then Exited(1)
    else
      var clean := CleanPlaylists(remote);
      if clean == [] then Exited(1) else Fetched(None, clean)
  }

  /** On a first run (no playlists file) the caller receives nothing, although playlists were found and written. */
  lemma PlaylistsAsWrittenReturnNothing(file: Option<seq<Playlist>>, remote: seq<GooglePlaylist>)
    requires file.None?
    requires CleanPlaylists(remote) != []
    ensures var r := GetGooglePlaylistsAsWritten(false, file, true, remote);
      r.Fetched? && r.written != [] && r.Returned() == None
  {
  }

  /** `get_google_playlists` as evidently intended: the fetch path returns what it writes. */
  function GetGooglePlaylists(forceFetch: bool, file: Option<seq<Playlist>>, authenticated: bool, remote: seq<GooglePlaylist>): (r: Extracted<seq<Playlist>>)
    ensures UseFile(forceFetch, file) <==> r.Loaded?
    ensures r.Loaded? ==> r.value == file.value
    ensures r.Fetched? ==> r.returned == Some(r.written) && r.written == CleanPlaylists(remote)
    // the process exits exactly when it has to fetch and the login fails or no playlist keeps a track
    ensures r.Exited? <==> !UseFile(forceFetch, file) && (!authenticated || CleanPlaylists(remote) == [])
    ensures r.Exited? ==> r.code == 1
  {
    if UseFile(forceFetch, file) then Loaded(file.value)
    else if !authenticated then Exited(1)
    else
      var clean := CleanPlaylists(remote);
      if clean == [] then Exited(1) else Fetched(Some(clean), clean)
  }

  /**
   * Fetched and cached paths agree: what a fetching run returns is what the
   * next run, reading the file it wrote, returns; and the result is never empty.
   */
  lemma PlaylistsFetchThenLoad(forceFetch: bool, file: Option<seq<Playlist>>, authenticated: bool, remote: seq<GooglePlaylist>, remote': seq<GooglePlaylist>)
    requires GetGooglePlaylists(forceFetch, file, authenticated, remote).Fetched?
    ensures var first := GetGooglePlaylists(forceFetch, file, authenticated, remote);
      var second := GetGooglePlaylists(false, Some(first.written), false, remote');
      && second == Loaded(first.written)
      && second.Returned() == first.Returned()
      && first.Returned().value != []
  {
  }

  /** The album artist of a song: `albumArtist`, or `artist` when that is missing or empty. */
  function AlbumArtistOf(s: GoogleSong): (a: string)
    ensures s.albumArtist.Some? && s.albumArtist.value != "" ==> a == s.albumArtist.value
    ensures s.albumArtist.None? || s.albumArtist.value == "" ==> a == s.artist
  {
    if s.albumArtist.None? || s.albumArtist.value == "" then s.artist else s.albumArtist.value
  }

  /** The dedup key of a song: album artist, '-', album. */
  function SongKey(s: GoogleSong): string {
    AlbumArtistOf(s) + "-" + s.album
  }

  /** The album record a song contributes. */
  function AlbumOf(s: GoogleSong): Album {
    Album(AlbumArtistOf(s), s.album, s.year)
  }

  /** The dedup key of an album record. */
  function AlbumKey(a: Album): string {
    a.artist + "-" + a.album
  }

  /** Song `i` is not deleted and no earlier non-deleted song has its key. */
  predicate FirstLive(songs: seq<GoogleSong>, i: nat)
    requires i < |songs|
  {
    !songs[i].deleted && forall j :: 0 <= j < i ==> songs[j].deleted || SongKey(songs[j]) != SongKey(songs[i])
  }

  /** Reference definition of the deduplicated albums: the first non-deleted song of each key, in input order. */
  function DistinctAlbums(songs: seq<GoogleSong>): seq<Album>
    decreases |songs|
  {
    if songs == [] then []
    else
      var n := |songs| - 1;
      DistinctAlbums(songs[..n]) + if FirstLive(songs, n) then [AlbumOf(songs[n])] else []
  }

  /** The keys of the non-deleted songs. */
  function LiveKeys(songs: seq<GoogleSong>): set<string> {
    set j | 0 <= j < |songs| && !songs[j].deleted :: SongKey(songs[j])
  }

  /** Extending the prefix by song `i` adds its key to the live keys unless it is deleted. */
  lemma LiveKeysSnoc(songs: seq<GoogleSong>, i: nat)
    requires i < |songs|
    ensures LiveKeys(songs[..i + 1]) == LiveKeys(songs[..i]) + (if songs[i].deleted then {} else {SongKey(songs[i])})
  {
    assert forall j :: 0 <= j < i ==> songs[..i + 1][j] == songs[..i][j];
    assert songs[..i + 1][i] == songs[i];
  }

  /** Song `i` is the first live song of its key exactly when it is live and its key is not among the earlier live keys. */
  lemma FirstLiveIffUnseen(songs: seq<GoogleSong>, i: nat)
    requires i < |songs|
    ensures FirstLive(songs[..i + 1], i) <==> !songs[i].deleted && SongKey(songs[i]) !in LiveKeys(songs[..i])
  {
    var prefix := songs[..i + 1];
    assert prefix[i] == songs[i];
    if SongKey(songs[i]) in LiveKeys(songs[..i]) {
      var j :| 0 <= j < i && !songs[..i][j].deleted && SongKey(songs[..i][j]) == SongKey(songs[i]);
      assert prefix[j] == songs[..i][j];
    } else {
      forall j | 0 <= j < i && !prefix[j].deleted
        ensures SongKey(prefix[j]) != SongKey(songs[i])
      {
        assert prefix[j] == songs[..i][j];
      }
    }
  }

  /** The dedup loop of `get_google_albums`, with its set of names seen. */
  method DedupAlbums(songs: seq<GoogleSong>) returns (albums: seq<Album>)
    ensures albums == DistinctAlbums(songs)
  {
    var names: set<string> := {};
    albums := [];
    for i := 0 to |songs|
      invariant names == LiveKeys(songs[..i])
      invariant albums == DistinctAlbums(songs[..i])
    {
      var p := songs[i];
      var artist := if p.albumArtist.None? || p.albumArtist.value == "" then p.artist else p.albumArtist.value;
      var key := artist + "-" + p.album;
      assert key == SongKey(p);
      ghost var prefix := songs[..i + 1];
      assert prefix[..i] == songs[..i];
      FirstLiveIffUnseen(songs, i);
      LiveKeysSnoc(songs, i);
      assert DistinctAlbums(prefix) == DistinctAlbums(songs[..i]) + if FirstLive(prefix, i) then [AlbumOf(p)] else [];
      if key !in names && !p.deleted {
        names := names + {key};
        albums := albums + [Album(artist, p.album, p.year)];
      }
    }
    assert songs[..|songs|] == songs;
  }

  /** Every album of the dedup comes from a first non-deleted song of its key: deleted songs never contribute. */
  lemma {:induction false} DistinctAlbumsFromFirstLive(songs: seq<GoogleSong>, k: nat)
    requires k < |DistinctAlbums(songs)|
    ensures exists i :: 0 <= i < |songs| && FirstLive(songs, i) && DistinctAlbums(songs)[k] == AlbumOf(songs[i])
    decreases |songs|
  {
    var n := |songs| - 1;
    var init := songs[..n];
    if k < |DistinctAlbums(init)| {
      DistinctAlbumsFromFirstLive(init, k);
      var i :| 0 <= i < |init| && FirstLive(init, i) && DistinctAlbums(init)[k] == AlbumOf(init[i]);
      assert songs[i] == init[i];
      assert FirstLive(songs, i);
    } else {
      assert FirstLive(songs, n);
    }
  }

  /** The first non-deleted song of every key contributes its album. */
  lemma {:induction false} FirstLiveContributes(songs: seq<GoogleSong>, i: nat)
    requires i < |songs| && FirstLive(songs, i)
    ensures AlbumOf(songs[i]) in DistinctAlbums(songs)
    decreases |songs|
  {
    var n := |songs| - 1;
    if i < n {
      var init := songs[..n];
      assert init[i] == songs[i];
      assert FirstLive(init, i);
      FirstLiveContributes(init, i);
    }
  }

  /** A non-deleted song's key is always represented, even when deleted songs with that key come first. */
  lemma LiveSongCovered(songs: seq<GoogleSong>, i: nat)
    requires i < |songs| && !songs[i].deleted
    ensures exists a :: a in DistinctAlbums(songs) && AlbumKey(a) == SongKey(songs[i])
  {
    var f := FirstOfKey(songs, i);
    FirstLiveContributes(songs, f);
    assert AlbumKey(AlbumOf(songs[f])) == SongKey(songs[f]);
  }

  /** The first non-deleted song with the key of the non-deleted song `i`. */
  lemma {:induction false} FirstOfKey(songs: seq<GoogleSong>, i: nat) returns (f: nat)
    requires i < |songs| && !songs[i].deleted
    ensures f <= i && FirstLive(songs, f) && SongKey(songs[f]) == SongKey(songs[i])
    decreases i
  {
    if FirstLive(songs, i) {
      f := i;
    } else {
      var j :| 0 <= j < i && !songs[j].deleted && SongKey(songs[j]) == SongKey(songs[i]);
      f := FirstOfKey(songs, j);
    }
  }

  /** The output keys are pairwise distinct. */
  lemma {:induction false} DistinctAlbumsKeysDistinct(songs: seq<GoogleSong>)
    ensures var r := DistinctAlbums(songs);
      forall i, j :: 0 <= i < j < |r| ==> AlbumKey(r[i]) != AlbumKey(r[j])
    decreases |songs|
  {
    if songs != [] {
      var n := |songs| - 1;
      var init := songs[..n];
      DistinctAlbumsKeysDistinct(init);
      if FirstLive(songs, n) {
        forall k | 0 <= k < |DistinctAlbums(init)|
          ensures AlbumKey(DistinctAlbums(init)[k]) != SongKey(songs[n])
        {
          DistinctAlbumsFromFirstLive(init, k);
          var i :| 0 <= i < |init| && FirstLive(init, i) && DistinctAlbums(init)[k] == AlbumOf(init[i]);
          assert songs[i] == init[i];
        }
        var r := DistinctAlbums(songs);
        assert r == DistinctAlbums(init) + [AlbumOf(songs[n])];
        assert AlbumKey(AlbumOf(songs[n])) == SongKey(songs[n]);
        forall i, j | 0 <= i < j < |r| ensures AlbumKey(r[i]) != AlbumKey(r[j]) {
          if j == |r| - 1 {
            assert r[i] == DistinctAlbums(init)[i];
          } else {
            assert r[i] == DistinctAlbums(init)[i] && r[j] == DistinctAlbums(init)[j];
          }
        }
      } else {
        assert DistinctAlbums(songs) == DistinctAlbums(init) + [];
      }
    }
  }

  /** `get_google_albums`: the cached extraction, or a fetch whose dedup is returned and written. */
  function GetGoogleAlbums(forceFetch: bool, file: Option<seq<Album>>, authenticated: bool, songs: seq<GoogleSong>): (r: Extracted<seq<Album>>)
    ensures UseFile(forceFetch, file) <==> r.Loaded?
    ensures r.Loaded? ==> r.value == file.value
    ensures r.Fetched? ==> r.returned == Some(r.written) && r.written == DistinctAlbums(songs)
    ensures r.Exited? <==> !UseFile(forceFetch, file) && !authenticated
    // a failed login leaves through `SystemExit(1)`
    ensures r.Exited? ==> r.code == 1
  {
    if UseFile(forceFetch, file) then Loaded(file.value)
    else if !authenticated then Exited(1)
    else
      var albums := DistinctAlbums(songs);
      Fetched(Some(albums), albums)
  }
}

=== FILE: library_builder.dfy ===
/**
 * The library builder: `create_spotify_playlists`, `create_spotify_playlist`,
 * `create_spotify_albums` and `put_spotify_albums`.
 *
 * Calls that change the destination account are recorded, in order, in an
 * effect log. The saved-album library is the set of album ids it holds; the
 * "contains" call answers from it and each add call extends it.
 */
module LibraryBuilder {
  import opened Options
  import opened Catalog
  import opened Matcher
  import opened MatchCache

  /** At most this many track ids per "add tracks to playlist" request. */
  const PlaylistChunk: nat := 100
  /** At most this many albums per "saved albums contains" and "save albums" request. */
  const AlbumChunk: nat := 50
  /** The playlist whose tracks are also saved to the library (the command-line override is never applied). */
  const FavoritesName: string := "favorites"

  /** A call that the builder makes on the destination account. */
  datatype Effect =
    | CreatePlaylist(user: string, name: string, public: bool)
    | AddToPlaylist(user: string, playlistId: string, ids: seq<string>)
    | SaveTracks(ids: seq<string>)
    | AlbumsContains(albums: seq<AlbumMatch>)
    | SaveAlbums(albums: seq<AlbumMatch>)

  /** All the elements of `chunks`, one chunk after the other. */
  function Flatten<T>(chunks: seq<seq<T>>): seq<T>
    decreases |chunks|
  {
    if chunks == [] then [] else chunks[0] + Flatten(chunks[1..])
  }

  /** Consecutive slices of `s` of length `size` (the last one possibly shorter). */
  function Chunks<T>(s: seq<T>, size: nat): (r: seq<seq<T>>)
    requires size > 0
    ensures Flatten(r) == s
    ensures forall i :: 0 <= i < |r| ==> 0 < |r[i]| <= size
    ensures forall i :: 0 <= i < |r| - 1 ==> |r[i]| == size
    decreases |s|
  {
    if |s| == 0 then []
    else if |s| <= size then
      assert Flatten([s]) == s + Flatten([s][1..]);
      [s]
    else
      var rest := Chunks(s[size..], size);
      assert ([s[..size]] + rest)[1..] == rest;
      assert s[..size] + s[size..] == s;
      [s[..size]] + rest
  }

  /** 120 albums are checked in three requests: 50, 50 and 20. */
  lemma AlbumBatchesOf120<T>(albums: seq<T>)
    requires |albums| == 120
    ensures var c := Chunks(albums, AlbumChunk);
      |c| == 3 && |c[0]| == 50 && |c[1]| == 50 && |c[2]| == 20
  {
    var c := Chunks(albums, AlbumChunk);
    assert c == [albums[..50]] + Chunks(albums[50..], 50);
    assert Chunks(albums[50..], 50) == [albums[50..][..50]] + Chunks(albums[50..][50..], 50);
    assert Chunks(albums[50..][50..], 50) == [albums[50..][50..]];
  }

  /** One "add tracks to playlist" request per chunk. */
  function AddRequests(user: string, playlistId: string, chunks: seq<seq<string>>): (r: seq<Effect>)
    ensures |r| == |chunks|
    ensures forall i :: 0 <= i < |r| ==> r[i] == AddToPlaylist(user, playlistId, chunks[i])
    decreases |chunks|
  {
    if chunks == [] then [] else [AddToPlaylist(user, playlistId, chunks[0])] + AddRequests(user, playlistId, chunks[1..])
  }

  /** The ids carried by a sequence of "add tracks to playlist" requests. */
  function AddedIds(effects: seq<Effect>): seq<string>
    decreases |effects|
  {
    if effects == [] then []
    else (if effects[0].AddToPlaylist? then effects[0].ids else []) + AddedIds(effects[1..])
  }

  /** The requests of `create_spotify_playlist`: create a private playlist, then add its tracks in chunks. */
  function PlaylistRequests(user: string, name: string, playlistId: string, ids: seq<string>): seq<Effect> {
    [CreatePlaylist(user, name, false)] + AddRequests(user, playlistId, Chunks(ids, PlaylistChunk))
  }

  /** The add requests together carry exactly the ids, in order. */
  lemma {:induction false} AddRequestsCarryIds(user: string, playlistId: string, chunks: seq<seq<string>>)
    ensures AddedIds(AddRequests(user, playlistId, chunks)) == Flatten(chunks)
    decreases |chunks|
  {
    if chunks != [] {
      var r := AddRequests(user, playlistId, chunks);
      assert r[1..] == AddRequests(user, playlistId, chunks[1..]);
      AddRequestsCarryIds(user, playlistId, chunks[1..]);
    }
  }

  /** A playlist gets all its ids, in order, in requests of at most 100 non-empty chunks. */
  lemma PlaylistRequestsShape(user: string, name: string, playlistId: string, ids: seq<string>)
    ensures var r := PlaylistRequests(user, name, playlistId, ids);
      && r[0] == CreatePlaylist(user, name, false)
      && AddedIds(r[1..]) == ids
      && forall i :: 1 <= i < |r| ==> r[i].AddToPlaylist? && r[i].playlistId == playlistId && 0 < |r[i].ids| <= PlaylistChunk
  {
    var r := PlaylistRequests(user, name, playlistId, ids);
    assert r[1..] == AddRequests(user, playlistId, Chunks(ids, PlaylistChunk));
    AddRequestsCarryIds(user, playlistId, Chunks(ids, PlaylistChunk));
  }

  /**
   * `create_spotify_playlist`: create the playlist, then walk the ids with a
   * stride of 100, adding each slice.
   */
  method CreateSpotifyPlaylist(user: string, name: string, createdId: string, tracks: seq<string>) returns (effects: seq<Effect>)
    ensures effects == PlaylistRequests(user, name, createdId, tracks)
  {
    effects := [CreatePlaylist(user, name, false)];
    var i := 0;
    while i < |tracks|
      invariant 0 <= i <= |tracks|
      invariant effects + AddRequests(user, createdId, Chunks(tracks[i..], PlaylistChunk)) == PlaylistRequests(user, name, createdId, tracks)
      decreases |tracks| - i
    {
      var end := if i + PlaylistChunk < |tracks| then i + PlaylistChunk else |tracks|;
      var chunk := tracks[i..end];
      ghost var rest := Chunks(tracks[i..], PlaylistChunk);
      assert rest[0] == chunk && Chunks(tracks[end..], PlaylistChunk) == rest[1..] by {
        if end < |tracks| {
          assert tracks[i..][PlaylistChunk..] == tracks[end..];
        } else {
          assert tracks[end..] == [];
        }
      }
      assert AddRequests(user, createdId, rest) == [AddToPlaylist(user, createdId, chunk)] + AddRequests(user, createdId, rest[1..]);
      effects := effects + [AddToPlaylist(user, createdId, chunk)];
      i := end;
    }
  }

  /** The albums of `batch` whose ids the library does not hold, in order. */
  function Unsaved(library: set<string>, batch: seq<AlbumMatch>): (r: seq<AlbumMatch>)
    ensures |r| <= |batch|
    ensures forall x :: x in r <==> x in batch && x.Id() !in library
    ensures r == [] <==> forall j :: 0 <= j < |batch| ==> batch[j].Id() in library
    decreases |batch|
  {
    if batch == [] then []
    else (if batch[0].Id() in library then [] else [batch[0]]) + Unsaved(library, batch[1..])
  }

  /** Filtering distributes over concatenation, so the kept albums stay in slice order, duplicates included. */
  lemma {:induction false} UnsavedAppend(library: set<string>, a: seq<AlbumMatch>, b: seq<AlbumMatch>)
    ensures Unsaved(library, a + b) == Unsaved(library, a) + Unsaved(library, b)
    decreases |a|
  {
    if a == [] {
      assert a + b == b;
    } else {
      assert (a + b)[1..] == a[1..] + b;
      assert (a + b)[0] == a[0];
      UnsavedAppend(library, a[1..], b);
    }
  }

  /** A single album is kept exactly when the library does not hold its id. */
  lemma UnsavedOne(library: set<string>, x: AlbumMatch)
    ensures Unsaved(library, [x]) == if x.Id() in library then [] else [x]
  {
    assert [x][1..] == [];
  }

  /** One pass of the `put_spotify_albums` loop: the slice checked and the albums added (none means no add call). */
  datatype BatchCall = BatchCall(checked: seq<AlbumMatch>, saved: seq<AlbumMatch>)

  /** The outcome of `put_spotify_albums`: the calls per slice, the library after them, and the printed count. */
  datatype Put = Put(calls: seq<BatchCall>, library: set<string>, count: nat)

  /** The ids of some albums. */
  function IdsOf(albums: seq<AlbumMatch>): set<string> {
    set x | x in albums :: x.Id()
  }

  /** The library after the add calls of `calls`, starting from `library`. */
  function LibraryAfter(library: set<string>, calls: seq<BatchCall>): set<string>
    decreases |calls|
  {
    if calls == [] then library else LibraryAfter(library + IdsOf(calls[0].saved), calls[1..])
  }

  /** Total number of albums in the add calls. */
  function TotalSaved(calls: seq<BatchCall>): nat
    decreases |calls|
  {
    if calls == [] then 0 else |calls[0].saved| + TotalSaved(calls[1..])
  }

  /** Check each batch against the library as it stands, and add the ones it does not hold. */
  function PutBatches(library: set<string>, batches: seq<seq<AlbumMatch>>): (r: Put)
    ensures |r.calls| == |batches|
    ensures forall i :: 0 <= i < |batches| ==> r.calls[i].checked == batches[i]
    ensures r.library == LibraryAfter(library, r.calls)
    ensures r.count == TotalSaved(r.calls)
    decreases |batches|
  {
    if batches == [] then Put([], library, 0)
    else
      var toSave := Unsaved(library, batches[0]);
      var rest := PutBatches(library + IdsOf(toSave), batches[1..]);
      var calls := [BatchCall(batches[0], toSave)] + rest.calls;
      assert calls[1..] == rest.calls;
      Put(calls, rest.library, |toSave| + rest.count)
  }

  /**
   * Each add call holds exactly the albums of its slice that the library did
   * not hold when the slice was checked (after the earlier add calls), in order.
   */
  lemma {:induction false} PutBatchesSavesUnsaved(library: set<string>, batches: seq<seq<AlbumMatch>>, i: nat)
    requires i < |batches|
    ensures var calls := PutBatches(library, batches).calls;
      calls[i].saved == Unsaved(LibraryAfter(library, calls[..i]), batches[i])
    decreases i
  {
    var calls := PutBatches(library, batches).calls;
    if i > 0 {
      var toSave := Unsaved(library, batches[0]);
      var rest := PutBatches(library + IdsOf(toSave), batches[1..]);
      assert calls == [BatchCall(batches[0], toSave)] + rest.calls;
      assert calls[..i][1..] == rest.calls[..i - 1];
      PutBatchesSavesUnsaved(library + IdsOf(toSave), batches[1..], i - 1);
    } else {
      assert calls[..0] == [];
    }
  }

  /** `put_spotify_albums`: slices of 50, each checked and then its unsaved albums added. */
  function PutSpotifyAlbums(library: set<string>, albums: seq<AlbumMatch>): (r: Put)
    ensures forall i :: 0 <= i < |r.calls| ==> 0 < |r.calls[i].checked| <= AlbumChunk
    ensures |r.calls| == |Chunks(albums, AlbumChunk)|
  {
    PutBatches(library, Chunks(albums, AlbumChunk))
  }

  /** The requests `put_spotify_albums` makes: a contains check per slice, then an add call only if something is missing. */
  function PutRequests(calls: seq<BatchCall>): (r: seq<Effect>)
    // one contains check per slice, plus at most one add call per slice
    ensures |calls| <= |r| <= 2 * |calls|
    // the first request is the first slice's contains check
    ensures calls != [] ==> r[0] == AlbumsContains(calls[0].checked)
    // no add call at all when no slice had anything to add
    ensures (forall i :: 0 <= i < |calls| ==> calls[i].saved == []) ==> |r| == |calls|
    decreases |calls|
  {
    if calls == [] then []
    else [AlbumsContains(calls[0].checked)] + (if calls[0].saved == [] then [] else [SaveAlbums(calls[0].saved)]) + PutRequests(calls[1..])
  }

  /** The requests of consecutive runs of slices follow each other. */
  lemma {:induction false} PutRequestsAppend(a: seq<BatchCall>, b: seq<BatchCall>)
    ensures PutRequests(a + b) == PutRequests(a) + PutRequests(b)
    decreases |a|
  {
    if a == [] {
      assert a + b == b;
    } else {
      assert (a + b)[1..] == a[1..] + b;
      assert (a + b)[0] == a[0];
      PutRequestsAppend(a[1..], b);
    }
  }

  /** One slice: its contains check, then an add call carrying its unsaved albums when there are any. */
  lemma PutRequestsOne(c: BatchCall)
    ensures PutRequests([c]) == [AlbumsContains(c.checked)] + (if c.saved == [] then [] else [SaveAlbums(c.saved)])
  {
    assert [c][1..] == [];
  }

  /** The albums carried by the add calls. */
  function SavedAlbums(effects: seq<Effect>): seq<AlbumMatch>
    decreases |effects|
  {
    if effects == [] then []
    else (if effects[0].SaveAlbums? then effects[0].albums else []) + SavedAlbums(effects[1..])
  }

  /** The printed count is the number of albums the add calls carried. */
  lemma {:induction false} PutCountIsAdded(calls: seq<BatchCall>)
    ensures |SavedAlbums(PutRequests(calls))| == TotalSaved(calls)
    decreases |calls|
  {
    if calls != [] {
      var head := [AlbumsContains(calls[0].checked)] + (if calls[0].saved == [] then [] else [SaveAlbums(calls[0].saved)]);
      var rest := PutRequests(calls[1..]);
      SavedAlbumsAppend(head, rest);
      PutCountIsAdded(calls[1..]);
      if calls[0].saved != [] {
        assert SavedAlbums(head) == calls[0].saved by {
          assert head[1..][1..] == [];
        }
      } else {
        assert SavedAlbums(head) == [] by { assert head[1..] == []; }
      }
    }
  }

  lemma {:induction false} SavedAlbumsAppend(a: seq<Effect>, b: seq<Effect>)
    ensures SavedAlbums(a + b) == SavedAlbums(a) + SavedAlbums(b)
    decreases |a|
  {
    if a == [] {
      assert a + b == b;
    } else {
      assert (a + b)[1..] == a[1..] + b;
      SavedAlbumsAppend(a[1..], b);
    }
  }

  /** When the library already holds every album, no add call is made and the count is zero. */
  lemma {:induction false} PutNothingWhenAllSaved(library: set<string>, batches: seq<seq<AlbumMatch>>)
    requires forall i, j :: 0 <= i < |batches| && 0 <= j < |batches[i]| ==> batches[i][j].Id() in library
    ensures var r := PutBatches(library, batches);
      r.count == 0 && r.library == library && SavedAlbums(PutRequests(r.calls)) == []
    decreases |batches|
  {
    var r := PutBatches(library, batches);
    if batches != [] {
      assert Unsaved(library, batches[0]) == [];
      assert library + IdsOf([]) == library;
      PutNothingWhenAllSaved(library, batches[1..]);
      PutCountIsAdded(r.calls);
    }
  }

  /** The effects and the track cache files after `create_spotify_playlists`. */
  datatype PlaylistsRun = PlaylistsRun(effects: seq<Effect>, files: TrackFiles)

  /** The requests made for one playlist whose matched ids are `ids`: the favourites playlist also saves them, unbatched. */
  function OnePlaylistRequests(user: string, name: string, playlistId: string, ids: seq<string>): seq<Effect> {
    PlaylistRequests(user, name, playlistId, ids) + (if name == FavoritesName then [SaveTracks(ids)] else [])
  }

  lemma {:induction false} AddedIdsAppend(a: seq<Effect>, b: seq<Effect>)
    ensures AddedIds(a + b) == AddedIds(a) + AddedIds(b)
    decreases |a|
  {
    if a == [] {
      assert a + b == b;
    } else {
      assert (a + b)[1..] == a[1..] + b;
      AddedIdsAppend(a[1..], b);
    }
  }

  /** All the requests for one playlist, favourites save included, add exactly its ids to it. */
  lemma OnePlaylistAddsIds(user: string, name: string, playlistId: string, ids: seq<string>)
    ensures AddedIds(OnePlaylistRequests(user, name, playlistId, ids)) == ids
  {
    var made := PlaylistRequests(user, name, playlistId, ids);
    var tail: seq<Effect> := if name == FavoritesName then [SaveTracks(ids)] else [];
    PlaylistRequestsShape(user, name, playlistId, ids);
    assert AddedIds(made) == AddedIds(made[1..]);
    AddedIdsAppend(made, tail);
    assert AddedIds(tail) == [] by {
      if name == FavoritesName {
        assert tail[1..] == [];
      }
    }
  }

  /**
   * One pass of `create_spotify_playlists`: match the playlist's tracks through
   * the cache, then create the destination playlist and fill it. The id the
   * service gives the `k`-th created playlist is `mint(k)`.
   */
  function PlaylistStep(cfg: Config, search: Search, mint: nat -> string): (TrackFiles, Playlist, nat) -> PlaylistsRun {
    (files: TrackFiles, p: Playlist, k: nat) =>
      var got := GetSpotifyTracks(cfg.forceFetch, search, files, p.name, p.tracks, None);
      PlaylistsRun(OnePlaylistRequests(cfg.user, p.name, mint(k), got.ids), got.files)
  }

  /** Run `step` on each playlist in turn, threading the cache files and the playlist number. */
  function FoldPlaylists(step: (TrackFiles, Playlist, nat) -> PlaylistsRun, files: TrackFiles, playlists: seq<Playlist>, n: nat): (r: PlaylistsRun)
    ensures playlists == [] ==> r == PlaylistsRun([], files)
    decreases |playlists|
  {
    if playlists == [] then PlaylistsRun([], files)
    else
      var first := step(files, playlists[0], n);
      var rest := FoldPlaylists(step, first.files, playlists[1..], n + 1);
      PlaylistsRun(first.effects + rest.effects, rest.files)
  }

  /** Running over `a + b` is running over `a`, then over `b` from the files and number `a` leaves. */
  lemma {:induction false} FoldPlaylistsAppend(step: (TrackFiles, Playlist, nat) -> PlaylistsRun, files: TrackFiles, a: seq<Playlist>, b: seq<Playlist>, n: nat)
    ensures var ra := FoldPlaylists(step, files, a, n);
      var rb := FoldPlaylists(step, ra.files, b, n + |a|);
      FoldPlaylists(step, files, a + b, n) == PlaylistsRun(ra.effects + rb.effects, rb.files)
    decreases |a|
  {
    if a == [] {
      assert a + b == b;
      assert [] + FoldPlaylists(step, files, b, n).effects == FoldPlaylists(step, files, b, n).effects;
    } else {
      var first := step(files, a[0], n);
      assert (a + b)[0] == a[0] && (a + b)[1..] == a[1..] + b;
      FoldPlaylistsAppend(step, first.files, a[1..], b, n + 1);
      var ra' := FoldPlaylists(step, first.files, a[1..], n + 1);
      var rb := FoldPlaylists(step, ra'.files, b, n + 1 + |a[1..]|);
      assert first.effects + (ra'.effects + rb.effects) == (first.effects + ra'.effects) + rb.effects;
    }
  }

  /** A run over one playlist is that playlist's step. */
  lemma FoldPlaylistsOne(step: (TrackFiles, Playlist, nat) -> PlaylistsRun, files: TrackFiles, p: Playlist, n: nat)
    ensures FoldPlaylists(step, files, [p], n) == step(files, p, n)
  {
    assert [p][1..] == [];
    assert step(files, p, n).effects + [] == step(files, p, n).effects;
  }

  /** `create_spotify_playlists`: each playlist in turn, from the playlist numbered `n`. */
  function CreateSpotifyPlaylists(cfg: Config, search: Search, files: TrackFiles, mint: nat -> string, playlists: seq<Playlist>, n: nat): (r: PlaylistsRun)
    ensures playlists == [] ==> r == PlaylistsRun([], files)
    // the first request creates the first playlist, private
    ensures playlists != [] ==> |r.effects| > 0 && r.effects[0] == CreatePlaylist(cfg.user, playlists[0].name, false)
  {
    var step := PlaylistStep(cfg, search, mint);
    var r := FoldPlaylists(step, files, playlists, n);
    if playlists == [] then r
    else
      var first := step(files, playlists[0], n);
      var got := GetSpotifyTracks(cfg.forceFetch, search, files, playlists[0].name, playlists[0].tracks, None);
      assert first.effects == OnePlaylistRequests(cfg.user, playlists[0].name, mint(n), got.ids);
      assert first.effects[0] == CreatePlaylist(cfg.user, playlists[0].name, false);
      assert r.effects[0] == first.effects[0];
      r
  }

  /**
   * A run over `a + b` makes the requests of `a`, then those of `b` run on the
   * cache files `a` leaves and numbering its playlists on from `n + |a|`.
   */
  lemma CreateSpotifyPlaylistsAppend(cfg: Config, search: Search, files: TrackFiles, mint: nat -> string, a: seq<Playlist>, b: seq<Playlist>, n: nat)
    ensures var ra := CreateSpotifyPlaylists(cfg, search, files, mint, a, n);
      var rb := CreateSpotifyPlaylists(cfg, search, ra.files, mint, b, n + |a|);
      CreateSpotifyPlaylists(cfg, search, files, mint, a + b, n) == PlaylistsRun(ra.effects + rb.effects, rb.files)
  {
    FoldPlaylistsAppend(PlaylistStep(cfg, search, mint), files, a, b, n);
  }

  /**
   * One playlist: it is created, filled with exactly the ids the cache step
   * returned, in order and in chunks of at most 100; the ids are saved to the
   * library as well exactly when the playlist is the favourites one.
   */
  lemma CreateOnePlaylist(cfg: Config, search: Search, files: TrackFiles, mint: nat -> string, p: Playlist, n: nat)
    ensures var got := GetSpotifyTracks(cfg.forceFetch, search, files, p.name, p.tracks, None);
      var r := CreateSpotifyPlaylists(cfg, search, files, mint, [p], n);
      var made := PlaylistRequests(cfg.user, p.name, mint(n), got.ids);
      && r.files == got.files
      && r.effects[..|made|] == made
      && AddedIds(made[1..]) == got.ids
      && AddedIds(r.effects) == got.ids
      && (p.name == FavoritesName <==> r.effects == made + [SaveTracks(got.ids)])
      && (p.name != FavoritesName <==> r.effects == made)
  {
    var got := GetSpotifyTracks(cfg.forceFetch, search, files, p.name, p.tracks, None);
    var made := PlaylistRequests(cfg.user, p.name, mint(n), got.ids);
    var r := CreateSpotifyPlaylists(cfg, search, files, mint, [p], n);
    FoldPlaylistsOne(PlaylistStep(cfg, search, mint), files, p, n);
    assert r.effects == OnePlaylistRequests(cfg.user, p.name, mint(n), got.ids);
    PlaylistRequestsShape(cfg.user, p.name, mint(n), got.ids);
    OnePlaylistAddsIds(cfg.user, p.name, mint(n), got.ids);
    if p.name != FavoritesName {
      assert r.effects == made;
      assert r.effects != made + [SaveTracks(got.ids)] by { assert |r.effects| != |made + [SaveTracks(got.ids)]|; }
    } else {
      assert r.effects != made by { assert |r.effects| != |made|; }
    }
  }

  /**
   * A fresh playlist whose every track the catalog finds: the destination
   * playlist receives exactly the found ids, in source order.
   */
  lemma FreshPlaylistAllFound(cfg: Config, search: Search, files: TrackFiles, mint: nat -> string, p: Playlist, n: nat)
    requires p.name !in files.resolved
    requires forall i :: 0 <= i < |p.tracks| ==> FindSpotifyTrack(search, p.tracks[i]).found.Some?
    ensures var r := CreateSpotifyPlaylists(cfg, search, files, mint, [p], n);
      && r.effects[0] == CreatePlaylist(cfg.user, p.name, false)
      && var added := AddedIds(PlaylistRequests(cfg.user, p.name, mint(n), GetSpotifyTracks(cfg.forceFetch, search, files, p.name, p.tracks, None).ids)[1..]);
      // the run's own requests add exactly these ids
      && AddedIds(r.effects) == added
      && |added| == |p.tracks|
      && forall i :: 0 <= i < |p.tracks| ==> added[i] == FindSpotifyTrack(search, p.tracks[i]).found.value.id
  {
    var got := GetSpotifyTracks(cfg.forceFetch, search, files, p.name, p.tracks, None);
    var r := CreateSpotifyPlaylists(cfg, search, files, mint, [p], n);
    var made := PlaylistRequests(cfg.user, p.name, mint(n), got.ids);
    FreshAllFoundIds(cfg.forceFetch, search, files, p);
    assert AddedIds(made[1..]) == got.ids && AddedIds(r.effects) == got.ids by {
      CreateOnePlaylist(cfg, search, files, mint, p, n);
    }
  }

  /** An uncached playlist whose every track is found: the cache step returns the matches' ids, in source order. */
  lemma FreshAllFoundIds(forceFetch: bool, search: Search, files: TrackFiles, p: Playlist)
    requires p.name !in files.resolved
    requires forall i :: 0 <= i < |p.tracks| ==> FindSpotifyTrack(search, p.tracks[i]).found.Some?
    ensures var ids := GetSpotifyTracks(forceFetch, search, files, p.name, p.tracks, None).ids;
      |ids| == |p.tracks| && forall i :: 0 <= i < |p.tracks| ==> ids[i] == FindSpotifyTrack(search, p.tracks[i]).found.value.id
  {
    var got := GetSpotifyTracks(forceFetch, search, files, p.name, p.tracks, None);
    assert got.ids == MatchTracks(Finder(search), p.tracks).ids by {
      assert !TrackCacheHit(forceFetch, files, p.name, |p.tracks|);
      assert p.tracks[..ProcessedCount(|p.tracks|, None)] == p.tracks;
    }
    MatchTracksAllFound(Finder(search), p.tracks);
  }

  /** The names of the playlists that `effects` create, in order. */
  function CreatedNames(effects: seq<Effect>): seq<string>
    decreases |effects|
  {
    if effects == [] then []
    else (if effects[0].CreatePlaylist? then [effects[0].name] else []) + CreatedNames(effects[1..])
  }

  lemma {:induction false} CreatedNamesAppend(a: seq<Effect>, b: seq<Effect>)
    ensures CreatedNames(a + b) == CreatedNames(a) + CreatedNames(b)
    decreases |a|
  {
    if a == [] {
      assert a + b == b;
    } else {
      assert (a + b)[1..] == a[1..] + b;
      CreatedNamesAppend(a[1..], b);
    }
  }

  /** Add requests create nothing. */
  lemma {:induction false} AddRequestsCreateNothing(user: string, playlistId: string, chunks: seq<seq<string>>)
    ensures CreatedNames(AddRequests(user, playlistId, chunks)) == []
    decreases |chunks|
  {
    if chunks != [] {
      var r := AddRequests(user, playlistId, chunks);
      assert r[1..] == AddRequests(user, playlistId, chunks[1..]);
      AddRequestsCreateNothing(user, playlistId, chunks[1..]);
    }
  }

  /** The requests for one playlist create exactly that playlist. */
  lemma OnePlaylistCreatesIt(user: string, name: string, playlistId: string, ids: seq<string>)
    ensures CreatedNames(OnePlaylistRequests(user, name, playlistId, ids)) == [name]
  {
    var adds := AddRequests(user, playlistId, Chunks(ids, PlaylistChunk));
    var tail: seq<Effect> := if name == FavoritesName then [SaveTracks(ids)] else [];
    assert OnePlaylistRequests(user, name, playlistId, ids) == [CreatePlaylist(user, name, false)] + (adds + tail);
    CreatedNamesAppend([CreatePlaylist(user, name, false)], adds + tail);
    CreatedNamesAppend(adds, tail);
    AddRequestsCreateNothing(user, playlistId, Chunks(ids, PlaylistChunk));
    assert CreatedNames([CreatePlaylist(user, name, false)]) == [name] + CreatedNames([]);
    if name == FavoritesName {
      assert CreatedNames(tail) == [] + CreatedNames([]);
    }
  }

  /** Saving albums creates no playlist. */
  lemma {:induction false} PutRequestsCreateNothing(calls: seq<BatchCall>)
    ensures CreatedNames(PutRequests(calls)) == []
    decreases |calls|
  {
    if calls != [] {
      var head := [AlbumsContains(calls[0].checked)] + (if calls[0].saved == [] then [] else [SaveAlbums(calls[0].saved)]);
      CreatedNamesAppend(head, PutRequests(calls[1..]));
      PutRequestsCreateNothing(calls[1..]);
      assert CreatedNames(head) == [] by {
        assert head[1..] == (if calls[0].saved == [] then [] else [SaveAlbums(calls[0].saved)]);
        if calls[0].saved != [] {
          assert head[1..][1..] == [];
        }
      }
    }
  }

  /** Add requests save no album. */
  lemma {:induction false} AddRequestsSaveNoAlbums(user: string, playlistId: string, chunks: seq<seq<string>>)
    ensures SavedAlbums(AddRequests(user, playlistId, chunks)) == []
    decreases |chunks|
  {
    if chunks != [] {
      var r := AddRequests(user, playlistId, chunks);
      assert r[1..] == AddRequests(user, playlistId, chunks[1..]);
      AddRequestsSaveNoAlbums(user, playlistId, chunks[1..]);
    }
  }

  /** The requests for one playlist save no album. */
  lemma OnePlaylistSavesNoAlbums(user: string, name: string, playlistId: string, ids: seq<string>)
    ensures SavedAlbums(OnePlaylistRequests(user, name, playlistId, ids)) == []
  {
    var adds := AddRequests(user, playlistId, Chunks(ids, PlaylistChunk));
    var tail: seq<Effect> := if name == FavoritesName then [SaveTracks(ids)] else [];
    assert OnePlaylistRequests(user, name, playlistId, ids) == [CreatePlaylist(user, name, false)] + (adds + tail);
    SavedAlbumsAppend([CreatePlaylist(user, name, false)], adds + tail);
    SavedAlbumsAppend(adds, tail);
    AddRequestsSaveNoAlbums(user, playlistId, Chunks(ids, PlaylistChunk));
    assert SavedAlbums([CreatePlaylist(user, name, false)]) == [] + SavedAlbums([]);
    if name == FavoritesName {
      assert SavedAlbums(tail) == [] + SavedAlbums([]);
    }
  }

  /** A fold of steps none of which saves an album saves no album. */
  lemma {:induction false} FoldSavesNoAlbums(step: (TrackFiles, Playlist, nat) -> PlaylistsRun, files: TrackFiles, playlists: seq<Playlist>, n: nat)
    requires forall f: TrackFiles, p: Playlist, k: nat :: SavedAlbums(step(f, p, k).effects) == []
    ensures SavedAlbums(FoldPlaylists(step, files, playlists, n).effects) == []
    decreases |playlists|
  {
    if playlists != [] {
      var first := step(files, playlists[0], n);
      FoldSavesNoAlbums(step, first.files, playlists[1..], n + 1);
      SavedAlbumsAppend(first.effects, FoldPlaylists(step, first.files, playlists[1..], n + 1).effects);
    }
  }

  /** Creating playlists saves no album. */
  lemma PlaylistsSaveNoAlbums(cfg: Config, search: Search, files: TrackFiles, mint: nat -> string, playlists: seq<Playlist>, n: nat)
    ensures SavedAlbums(CreateSpotifyPlaylists(cfg, search, files, mint, playlists, n).effects) == []
  {
    var step := PlaylistStep(cfg, search, mint);
    forall f: TrackFiles, p: Playlist, k: nat
      ensures SavedAlbums(step(f, p, k).effects) == []
    {
      var got := GetSpotifyTracks(cfg.forceFetch, search, f, p.name, p.tracks, None);
      assert step(f, p, k).effects == OnePlaylistRequests(cfg.user, p.name, mint(k), got.ids);
      OnePlaylistSavesNoAlbums(cfg.user, p.name, mint(k), got.ids);
    }
    FoldSavesNoAlbums(step, files, playlists, n);
  }

  lemma IdsOfAppend(a: seq<AlbumMatch>, b: seq<AlbumMatch>)
    ensures IdsOf(a + b) == IdsOf(a) + IdsOf(b)
  {
    forall id | id in IdsOf(a + b)
      ensures id in IdsOf(a) + IdsOf(b)
    {
      var x :| x in a + b && x.Id() == id;
    }
    forall id | id in IdsOf(a) + IdsOf(b)
      ensures id in IdsOf(a + b)
    {
      if id in IdsOf(a) {
        var x :| x in a && x.Id() == id;
        assert x in a + b;
      } else {
        var x :| x in b && x.Id() == id;
        assert x in a + b;
      }
    }
  }

  /** The library after saving is the starting library plus the ids of the albums the add requests carried. */
  lemma {:induction false} LibraryAfterAddsSaved(library: set<string>, calls: seq<BatchCall>)
    ensures LibraryAfter(library, calls) == library + IdsOf(SavedAlbums(PutRequests(calls)))
    decreases |calls|
  {
    if calls == [] {
      assert IdsOf([]) == {};
    } else {
      var head := [AlbumsContains(calls[0].checked)] + (if calls[0].saved == [] then [] else [SaveAlbums(calls[0].saved)]);
      var rest := PutRequests(calls[1..]);
      SavedAlbumsAppend(head, rest);
      assert SavedAlbums(head) == calls[0].saved by {
        if calls[0].saved != [] {
          assert head[1..][1..] == [];
        } else {
          assert head[1..] == [];
        }
      }
      LibraryAfterAddsSaved(library + IdsOf(calls[0].saved), calls[1..]);
      IdsOfAppend(calls[0].saved, SavedAlbums(rest));
    }
  }

  /** The names of some playlists, in order. */
  function NamesOf(playlists: seq<Playlist>): (r: seq<string>)
    ensures |r| == |playlists|
    ensures forall i :: 0 <= i < |playlists| ==> r[i] == playlists[i].name
  {
    seq(|playlists|, i requires 0 <= i < |playlists| => playlists[i].name)
  }

  /** A fold of steps each of which creates exactly the playlist it is given creates them all, in order. */
  lemma {:induction false} FoldCreatesInOrder(step: (TrackFiles, Playlist, nat) -> PlaylistsRun, files: TrackFiles, playlists: seq<Playlist>, n: nat)
    requires forall f: TrackFiles, p: Playlist, k: nat :: CreatedNames(step(f, p, k).effects) == [p.name]
    ensures CreatedNames(FoldPlaylists(step, files, playlists, n).effects) == NamesOf(playlists)
    decreases |playlists|
  {
    if playlists != [] {
      var first := step(files, playlists[0], n);
      FoldCreatesInOrder(step, first.files, playlists[1..], n + 1);
      CreatedNamesAppend(first.effects, FoldPlaylists(step, first.files, playlists[1..], n + 1).effects);
      assert NamesOf(playlists) == [playlists[0].name] + NamesOf(playlists[1..]);
    }
  }

  /**
   * Every extracted playlist is created on the destination service exactly
   * once, in extraction order, whatever the catalog finds for its tracks.
   */
  lemma PlaylistsCreatedInOrder(cfg: Config, search: Search, files: TrackFiles, mint: nat -> string, playlists: seq<Playlist>, n: nat)
    ensures CreatedNames(CreateSpotifyPlaylists(cfg, search, files, mint, playlists, n).effects) == NamesOf(playlists)
  {
    var step := PlaylistStep(cfg, search, mint);
    forall f: TrackFiles, p: Playlist, k: nat
      ensures CreatedNames(step(f, p, k).effects) == [p.name]
    {
      var got := GetSpotifyTracks(cfg.forceFetch, search, f, p.name, p.tracks, None);
      assert step(f, p, k).effects == OnePlaylistRequests(cfg.user, p.name, mint(k), got.ids);
      OnePlaylistCreatesIt(cfg.user, p.name, mint(k), got.ids);
    }
    FoldCreatesInOrder(step, files, playlists, n);
  }

  /** The matches of `create_spotify_albums` (misses dropped) and the album cache files after them. */
  datatype AlbumsMatched = AlbumsMatched(found: seq<AlbumMatch>, files: AlbumFiles)

  /** One album through the album cache: its match, if any, and the album files after it. */
  function AlbumStep(forceFetch: bool, search: Search): (AlbumFiles, Album) -> AlbumsMatched {
    (files: AlbumFiles, a: Album) =>
      var got := GetSpotifyAlbum(forceFetch, search, files, a.album, a.artist, a.year);
      AlbumsMatched(if got.result.Some? then [got.result.value] else [], got.files)
  }

  /** Run `step` on each album in turn, threading the album files and keeping what each step found. */
  function FoldAlbums(step: (AlbumFiles, Album) -> AlbumsMatched, files: AlbumFiles, albums: seq<Album>): (r: AlbumsMatched)
    ensures albums == [] ==> r == AlbumsMatched([], files)
    decreases |albums|
  {
    if albums == [] then AlbumsMatched([], files)
    else
      var first := step(files, albums[0]);
      var rest := FoldAlbums(step, first.files, albums[1..]);
      AlbumsMatched(first.found + rest.found, rest.files)
  }

  /** Folding over `a + b` is folding over `a`, then over `b` from the files `a` leaves. */
  lemma {:induction false} FoldAlbumsAppend(step: (AlbumFiles, Album) -> AlbumsMatched, files: AlbumFiles, a: seq<Album>, b: seq<Album>)
    ensures var ra := FoldAlbums(step, files, a);
      var rb := FoldAlbums(step, ra.files, b);
      FoldAlbums(step, files, a + b) == AlbumsMatched(ra.found + rb.found, rb.files)
    decreases |a|
  {
    if a == [] {
      assert a + b == b;
      assert [] + FoldAlbums(step, files, b).found == FoldAlbums(step, files, b).found;
    } else {
      var first := step(files, a[0]);
      assert (a + b)[0] == a[0] && (a + b)[1..] == a[1..] + b;
      FoldAlbumsAppend(step, first.files, a[1..], b);
      var ra' := FoldAlbums(step, first.files, a[1..]);
      var rb := FoldAlbums(step, ra'.files, b);
      assert first.found + (ra'.found + rb.found) == (first.found + ra'.found) + rb.found;
    }
  }

  /** Folding over one album is that album's step. */
  lemma FoldAlbumsOne(step: (AlbumFiles, Album) -> AlbumsMatched, files: AlbumFiles, a: Album)
    ensures FoldAlbums(step, files, [a]) == step(files, a)
  {
    assert [a][1..] == [];
    assert step(files, a).found + [] == step(files, a).found;
  }

  /** Each album step keeps at most one match, so a fold of them keeps at most one per album. */
  lemma {:induction false} AlbumStepsKeepAtMostOne(forceFetch: bool, search: Search, files: AlbumFiles, albums: seq<Album>)
    ensures |FoldAlbums(AlbumStep(forceFetch, search), files, albums).found| <= |albums|
    decreases |albums|
  {
    if albums != [] {
      var step := AlbumStep(forceFetch, search);
      var first := step(files, albums[0]);
      assert |first.found| <= 1;
      AlbumStepsKeepAtMostOne(forceFetch, search, first.files, albums[1..]);
    }
  }

  /** Resolve each album through the album cache, keeping the matches in order. */
  function MatchAlbums(forceFetch: bool, search: Search, files: AlbumFiles, albums: seq<Album>): (r: AlbumsMatched)
    ensures |r.found| <= |albums|
  {
    AlbumStepsKeepAtMostOne(forceFetch, search, files, albums);
    FoldAlbums(AlbumStep(forceFetch, search), files, albums)
  }

  /**
   * Unless fetching is forced, albums whose keys are all cached are resolved
   * to their cached ids, in order, without touching either album file.
   */
  lemma {:induction false} MatchAlbumsAllCached(search: Search, files: AlbumFiles, albums: seq<Album>)
    requires forall i :: 0 <= i < |albums| ==> AlbumCacheKey(albums[i].album, albums[i].artist) in files.resolved
    ensures var r := MatchAlbums(false, search, files, albums);
      && r.files == files
      && |r.found| == |albums|
      && forall i :: 0 <= i < |albums| ==> r.found[i] == CachedId(files.resolved[AlbumCacheKey(albums[i].album, albums[i].artist)])
    decreases |albums|
  {
    if albums != [] {
      var tail := albums[1..];
      assert forall i :: 0 <= i < |tail| ==> tail[i] == albums[i + 1];
      MatchAlbumsAllCached(search, files, tail);
    }
  }

  /** One album: its match is kept when the cache step found one, and the files are those the step leaves. */
  lemma MatchAlbumsOne(forceFetch: bool, search: Search, files: AlbumFiles, a: Album)
    ensures var got := GetSpotifyAlbum(forceFetch, search, files, a.album, a.artist, a.year);
      MatchAlbums(forceFetch, search, files, [a]) ==
        AlbumsMatched(if got.result.Some? then [got.result.value] else [], got.files)
  {
    FoldAlbumsOne(AlbumStep(forceFetch, search), files, a);
  }

  /**
   * Matching `a + b` keeps a's matches, then b's matches resolved on the album
   * files that `a` leaves: every non-empty result is kept, in order.
   */
  lemma MatchAlbumsAppend(forceFetch: bool, search: Search, files: AlbumFiles, a: seq<Album>, b: seq<Album>)
    ensures var ra := MatchAlbums(forceFetch, search, files, a);
      var rb := MatchAlbums(forceFetch, search, ra.files, b);
      MatchAlbums(forceFetch, search, files, a + b) == AlbumsMatched(ra.found + rb.found, rb.files)
  {
    FoldAlbumsAppend(AlbumStep(forceFetch, search), files, a, b);
  }

  /** What `create_spotify_albums` leaves: the matches, the album cache files, and the saving of the matches. */
  datatype AlbumsRun = AlbumsRun(matched: AlbumsMatched, put: Put)

  /** `create_spotify_albums`: resolve every album, then save the matches in batches of 50. */
  function CreateSpotifyAlbums(forceFetch: bool, search: Search, files: AlbumFiles, library: set<string>, albums: seq<Album>): (r: AlbumsRun)
    ensures |r.matched.found| <= |albums|
    ensures r.put.count == |SavedAlbums(PutRequests(r.put.calls))|
    ensures Flatten(Checked(r.put.calls)) == r.matched.found
  {
    var matched := MatchAlbums(forceFetch, search, files, albums);
    var put := PutSpotifyAlbums(library, matched.found);
    PutCountIsAdded(put.calls);
    CheckedAreChunks(library, Chunks(matched.found, AlbumChunk));
    AlbumsRun(matched, put)
  }

  /** The slices checked by a sequence of batch calls. */
  function Checked(calls: seq<BatchCall>): (r: seq<seq<AlbumMatch>>)
    ensures |r| == |calls|
    ensures forall i :: 0 <= i < |calls| ==> r[i] == calls[i].checked
  {
    seq(|calls|, i requires 0 <= i < |calls| => calls[i].checked)
  }

  /** The contains checks go over the batches exactly, so every album is checked once, in order. */
  lemma CheckedAreChunks(library: set<string>, batches: seq<seq<AlbumMatch>>)
    ensures Checked(PutBatches(library, batches).calls) == batches
  {
  }
}

=== FILE: match_cache.dfy ===
/**
 * The match cache around the matcher: `get_spotify_tracks` (per playlist) and
 * `get_spotify_album` (per album).
 *
 * The four JSON files are maps held in memory; a file that does not exist is
 * the empty map. Reading a file is reading the map, writing it replaces the map.
 */
module MatchCache {
  import opened Options
  import opened Catalog
  import opened Matcher

  /** `spotify_tracks.json` (playlist name to matched ids) and `spotify_misses.json` (playlist name to unmatched tracks). */
  datatype TrackFiles = TrackFiles(resolved: map<string, seq<string>>, missed: map<string, seq<Track>>)

  /** `spotify_albums.json` (`title;artist` to album id) and `spotify_misses_album.json` (`title;artist` to itself). */
  datatype AlbumFiles = AlbumFiles(resolved: map<string, string>, missed: map<string, string>)

  /** The matched ids and the unmatched (cleaned) tracks of one pass over a track list. */
  datatype TrackRun = TrackRun(ids: seq<string>, misses: seq<Track>)

  /** Add the outcome of one lookup to a run: its id if it found a match, the cleaned track otherwise. */
  function Extend(run: TrackRun, l: TrackLookup): (r: TrackRun)
    ensures |r.ids| + |r.misses| == |run.ids| + |run.misses| + 1
    // a match appends its id at the end of the ids and leaves the misses alone
    ensures l.found.Some? ==> r.ids == run.ids + [l.found.value.id] && r.misses == run.misses
    // a miss appends the cleaned track at the end of the misses and leaves the ids alone
    ensures l.found.None? ==> r.ids == run.ids && r.misses == run.misses + [l.cleaned]
  {
    match l.found
    case Some(item) => TrackRun(run.ids + [item.id], run.misses)
    case None => TrackRun(run.ids, run.misses + [l.cleaned])
  }

  /** `find_spotify_track` against a given catalog, as a function of the track. */
  function Finder(search: Search): Track -> TrackLookup {
    t => FindSpotifyTrack(search, t)
  }

  /** Match `tracks` one after the other with `find`. */
  function MatchTracks(find: Track -> TrackLookup, tracks: seq<Track>): (r: TrackRun)
    ensures |r.ids| + |r.misses| == |tracks|
    decreases |tracks|
  {
    if tracks == [] then TrackRun([], [])
    else Extend(MatchTracks(find, tracks[..|tracks| - 1]), find(tracks[|tracks| - 1]))
  }

  /** Both lists of one run followed by those of another. */
  function Concat(a: TrackRun, b: TrackRun): TrackRun {
    TrackRun(a.ids + b.ids, a.misses + b.misses)
  }

  lemma ExtendConcat(a: TrackRun, b: TrackRun, l: TrackLookup)
    ensures Extend(Concat(a, b), l) == Concat(a, Extend(b, l))
  {
    match l.found
    case Some(item) => assert a.ids + b.ids + [item.id] == a.ids + (b.ids + [item.id]);
    case None => assert a.misses + b.misses + [l.cleaned] == a.misses + (b.misses + [l.cleaned]);
  }

  /** One more track of the list: the loop's step. */
  lemma MatchTracksStep(find: Track -> TrackLookup, tracks: seq<Track>, i: nat)
    requires i < |tracks|
    ensures MatchTracks(find, tracks[..i + 1]) == Extend(MatchTracks(find, tracks[..i]), find(tracks[i]))
  {
    assert tracks[..i + 1][..i] == tracks[..i];
  }

  /** Matching distributes over concatenation: ids and misses both keep source order. */
  lemma {:induction false} MatchTracksAppend(find: Track -> TrackLookup, a: seq<Track>, b: seq<Track>)
    ensures MatchTracks(find, a + b) == Concat(MatchTracks(find, a), MatchTracks(find, b))
    decreases |b|
  {
    if b == [] {
      assert a + b == a;
      assert MatchTracks(find, a).ids + [] == MatchTracks(find, a).ids;
      assert MatchTracks(find, a).misses + [] == MatchTracks(find, a).misses;
    } else {
      var b' := b[..|b| - 1];
      var l := find(b[|b| - 1]);
      assert (a + b)[..|a + b| - 1] == a + b';
      assert (a + b)[|a + b| - 1] == b[|b| - 1];
      assert MatchTracks(find, a + b) == Extend(MatchTracks(find, a + b'), l);
      MatchTracksAppend(find, a, b');
      ExtendConcat(MatchTracks(find, a), MatchTracks(find, b'), l);
    }
  }

  /** A single track lands in exactly one of the two lists: its id if found, itself (cleaned) if not. */
  lemma MatchTracksOne(find: Track -> TrackLookup, t: Track)
    ensures var l := find(t);
      MatchTracks(find, [t]) == if l.found.Some? then TrackRun([l.found.value.id], []) else TrackRun([], [l.cleaned])
  {
    assert [t][..0] == [];
  }

  /** When every track is found, the ids are the matches' ids in source order and nothing is missed. */
  lemma {:induction false} MatchTracksAllFound(find: Track -> TrackLookup, tracks: seq<Track>)
    requires forall i :: 0 <= i < |tracks| ==> find(tracks[i]).found.Some?
    ensures MatchTracks(find, tracks).misses == []
    ensures |MatchTracks(find, tracks).ids| == |tracks|
    ensures forall i :: 0 <= i < |tracks| ==> MatchTracks(find, tracks).ids[i] == find(tracks[i]).found.value.id
    decreases |tracks|
  {
    if tracks != [] {
      var init := tracks[..|tracks| - 1];
      assert forall i :: 0 <= i < |init| ==> init[i] == tracks[i];
      MatchTracksAllFound(find, init);
    }
  }

  /** When no track is found, there is no id and every track is recorded, cleaned, as a miss. */
  lemma {:induction false} MatchTracksNoneFound(find: Track -> TrackLookup, tracks: seq<Track>)
    requires forall i :: 0 <= i < |tracks| ==> find(tracks[i]).found.None?
    ensures MatchTracks(find, tracks).ids == []
    ensures |MatchTracks(find, tracks).misses| == |tracks|
    ensures forall i :: 0 <= i < |tracks| ==> MatchTracks(find, tracks).misses[i] == find(tracks[i]).cleaned
    decreases |tracks|
  {
    if tracks != [] {
      var init := tracks[..|tracks| - 1];
      assert forall i :: 0 <= i < |init| ==> init[i] == tracks[i];
      MatchTracksNoneFound(find, init);
    }
  }

  /** How many tracks the loop processes: all of them, or `limit + 1` (the check comes after the match), at least one. */
  function ProcessedCount(n: nat, limit: Option<int>): (p: nat)
    ensures p <= n
    ensures limit.None? ==> p == n
    ensures limit.Some? && 0 <= limit.value < n ==> p == limit.value + 1
    ensures limit.Some? && limit.value >= n ==> p == n
    // a negative limit stops the loop after its first track
    ensures limit.Some? && limit.value < 0 ==> p == (if n == 0 then 0 else 1)
  {
    match limit
    case None => n
    case Some(l) =>
      var bound := if l < 0 then 1 else l + 1;
      if n < bound then n else bound
  }

  /**
   * The matching loop of `get_spotify_tracks`, with its `count` and early
   * `break`; `find` is `find_spotify_track` (`Finder(search)`). It matches
   * exactly the first `ProcessedCount` tracks.
   */
  method MatchPlaylist(find: Track -> TrackLookup, tracks: seq<Track>, limit: Option<int>) returns (ids: seq<string>, misses: seq<Track>)
    ensures TrackRun(ids, misses) == MatchTracks(find, tracks[..ProcessedCount(|tracks|, limit)])
  {
    ids, misses := [], [];
    var count := 0;
    var i := 0;
    while i < |tracks|
      invariant 0 <= i <= |tracks| && count == i
      invariant limit.Some? && i > 0 ==> i <= limit.value
      invariant TrackRun(ids, misses) == MatchTracks(find, tracks[..i])
    {
      var lookup := find(tracks[i]);
      if lookup.found.None? {
        misses := misses + [lookup.cleaned];
      } else {
        ids := ids + [lookup.found.value.id];
      }
      MatchTracksStep(find, tracks, i);
      i := i + 1;
      if limit.Some? && count >= limit.value {
        break;
      }
      count := count + 1;
    }
    assert tracks[..|tracks|] == tracks;
  }

  /** The cached ids are used only when fetching is not forced, the key is present and the cached list is as long as the track list. */
  function TrackCacheHit(forceFetch: bool, files: TrackFiles, playlist: string, n: nat): (hit: bool)
    // never under forced fetching, never without a resolved file (an absent file is the empty map)
    ensures forceFetch || files.resolved == map[] ==> !hit
    // a hit serves a list of exactly one id per track
    ensures hit ==> playlist in files.resolved && |files.resolved[playlist]| == n
  {
    !forceFetch && playlist in files.resolved && |files.resolved[playlist]| == n
  }

  /** What `get_spotify_tracks` returns, and the files as it leaves them. */
  datatype TracksOutcome = TracksOutcome(ids: seq<string>, files: TrackFiles)

  /**
   * `get_spotify_tracks`. On a cache hit the cached list is returned and no file
   * is written. Otherwise the processed tracks are matched, the ids are written
   * under the playlist's key into the loaded map (an empty one when fetching is
   * forced), and the misses are written under the same key into the misses
   * file, which is always loaded first.
   */
  function GetSpotifyTracks(forceFetch: bool, search: Search, files: TrackFiles, playlist: string, tracks: seq<Track>, limit: Option<int>): (r: TracksOutcome)
    ensures TrackCacheHit(forceFetch, files, playlist, |tracks|) ==> r == TracksOutcome(files.resolved[playlist], files)
    ensures !TrackCacheHit(forceFetch, files, playlist, |tracks|) ==>
      && playlist in r.files.resolved && r.files.resolved[playlist] == r.ids
      && playlist in r.files.missed
      && |r.ids| + |r.files.missed[playlist]| == ProcessedCount(|tracks|, limit)
      && r.files.resolved.Keys == (if forceFetch then {} else files.resolved.Keys) + {playlist}
      && (forall k :: k in r.files.resolved && k != playlist ==> r.files.resolved[k] == files.resolved[k])
      && r.files.missed.Keys == files.missed.Keys + {playlist}
      && (forall k :: k in files.missed && k != playlist ==> r.files.missed[k] == files.missed[k])
    // on a fresh run, the ids and the misses are those of matching the processed tracks in order
    ensures !TrackCacheHit(forceFetch, files, playlist, |tracks|) ==>
      var run := MatchTracks(Finder(search), tracks[..ProcessedCount(|tracks|, limit)]);
      r.ids == run.ids && r.files.missed[playlist] == run.misses
  {
    if TrackCacheHit(forceFetch, files, playlist, |tracks|) then
      TracksOutcome(files.resolved[playlist], files)
    else
      var run := MatchTracks(Finder(search), tracks[..ProcessedCount(|tracks|, limit)]);
      var loaded := if forceFetch then map[] else files.resolved;
      TracksOutcome(run.ids, TrackFiles(loaded[playlist := run.ids], files.missed[playlist := run.misses]))
  }

  /**
   * Store then load: a fresh run that matched every track is served back from
   * the cache on the next run, whatever the catalog answers then.
   */
  lemma TracksStoreThenLoad(forceFetch: bool, search: Search, search': Search, files: TrackFiles, playlist: string, tracks: seq<Track>, tracks': seq<Track>)
    requires !TrackCacheHit(forceFetch, files, playlist, |tracks|)
    requires |tracks'| == |tracks|
    ensures var first := GetSpotifyTracks(forceFetch, search, files, playlist, tracks, None);
      |first.ids| == |tracks| ==>
      && TrackCacheHit(false, first.files, playlist, |tracks'|)
      && GetSpotifyTracks(false, search', first.files, playlist, tracks', None) == TracksOutcome(first.ids, first.files)
  {
  }

  /** A playlist whose last fresh run missed a track is never served from the cache while its length is unchanged. */
  lemma TracksWithMissNeverCached(forceFetch: bool, search: Search, files: TrackFiles, playlist: string, tracks: seq<Track>)
    requires !TrackCacheHit(forceFetch, files, playlist, |tracks|)
    ensures var r := GetSpotifyTracks(forceFetch, search, files, playlist, tracks, None);
      r.files.missed[playlist] != [] ==> !TrackCacheHit(false, r.files, playlist, |tracks|)
  {
  }

  /** A run on one playlist leaves the other playlists' entries as they were, unless fetching is forced. */
  lemma TracksOtherKeysKept(search: Search, files: TrackFiles, playlist: string, tracks: seq<Track>, limit: Option<int>, other: string)
    requires other != playlist && other in files.resolved
    ensures var r := GetSpotifyTracks(false, search, files, playlist, tracks, limit);
      other in r.files.resolved && r.files.resolved[other] == files.resolved[other]
  {
  }

  /** Under forced fetching the resolved file is left holding only the current playlist. */
  lemma TracksForceFetchKeepsOnlyKey(search: Search, files: TrackFiles, playlist: string, tracks: seq<Track>, limit: Option<int>)
    ensures GetSpotifyTracks(true, search, files, playlist, tracks, limit).files.resolved.Keys == {playlist}
  {
  }

  /** The key under which an album is cached: the raw (uncleaned) title and artist joined by ';'. */
  function AlbumCacheKey(title: string, artist: string): string {
    title + ";" + artist
  }

  /** A cache hit returns the stored id; a fresh match returns the whole catalog entry. */
  datatype AlbumMatch = CachedId(id: string) | Fresh(album: Item) {
    /** The destination id the value designates. */
    function Id(): string {
      match this
      case CachedId(id) => id
      case Fresh(item) => item.id
    }
  }

  /** What `get_spotify_album` returns, the files as it leaves them, and the searches it made. */
  datatype AlbumOutcome = AlbumOutcome(result: Option<AlbumMatch>, files: AlbumFiles, issued: seq<Query>)

  /**
   * `get_spotify_album`. Unless fetching is forced, a present key is a hit. On a
   * fresh match the id is written under the key into the loaded map (empty when
   * fetching is forced); on a miss the resolved file is not written and the key
   * is recorded, mapped to itself, in the misses file.
   */
  function GetSpotifyAlbum(forceFetch: bool, search: Search, files: AlbumFiles, title: string, artist: string, year: Year): (r: AlbumOutcome)
    ensures var key := AlbumCacheKey(title, artist);
      (r.result.Some? && r.result.value.CachedId?) <==> (!forceFetch && key in files.resolved)
    ensures var key := AlbumCacheKey(title, artist);
      r.result.Some? && r.result.value.CachedId? ==> r.result.value.id == files.resolved[key] && r.files == files && r.issued == []
    ensures var key := AlbumCacheKey(title, artist);
      r.result.Some? && r.result.value.Fresh? ==>
        && r.files.missed == files.missed
        && key in r.files.resolved && r.files.resolved[key] == r.result.value.album.id
        && r.files.resolved.Keys == (if forceFetch then {} else files.resolved.Keys) + {key}
        && (forall k :: k in r.files.resolved && k != key ==> r.files.resolved[k] == files.resolved[k])
    // when the key is not served from the cache, the outcome is the matcher's
    ensures forceFetch || AlbumCacheKey(title, artist) !in files.resolved ==>
      var lookup := FindSpotifyAlbum(search, title, artist, year);
      && r.issued == lookup.issued
      && (r.result.None? <==> lookup.found.None?)
      && (r.result.Some? ==> r.result.value == Fresh(lookup.found.value))
    ensures var key := AlbumCacheKey(title, artist);
      r.result.None? ==> r.files.resolved == files.resolved && r.files.missed == files.missed[key := key]
    ensures r.result.None? || r.result.value.Fresh? ==> 1 <= |r.issued| <= 2
  {
    var key := AlbumCacheKey(title, artist);
    if !forceFetch && key in files.resolved then
      AlbumOutcome(Some(CachedId(files.resolved[key])), files, [])
    else
      var lookup := FindSpotifyAlbum(search, title, artist, year);
      match lookup.found
      case None => AlbumOutcome(None, files.(missed := files.missed[key := key]), lookup.issued)
      case Some(item) =>
        var loaded := if forceFetch then map[] else files.resolved;
        AlbumOutcome(Some(Fresh(item)), files.(resolved := loaded[key := item.id]), lookup.issued)
  }

  /** A hit depends on nothing but the key: not on the catalog, not on the year. */
  lemma AlbumHitIgnoresCatalog(search: Search, search': Search, files: AlbumFiles, title: string, artist: string, year: Year, year': Year)
    requires AlbumCacheKey(title, artist) in files.resolved
    ensures GetSpotifyAlbum(false, search, files, title, artist, year) == GetSpotifyAlbum(false, search', files, title, artist, year')
  {
  }

  /** Store then load: after a fresh match, the next run is a hit on the matched id and searches nothing. */
  lemma AlbumStoreThenLoad(forceFetch: bool, search: Search, search': Search, files: AlbumFiles, title: string, artist: string, year: Year, year': Year)
    requires GetSpotifyAlbum(forceFetch, search, files, title, artist, year).result.Some?
    ensures var first := GetSpotifyAlbum(forceFetch, search, files, title, artist, year);
      var second := GetSpotifyAlbum(false, search', first.files, title, artist, year');
      && second.result == Some(CachedId(first.result.value.Id()))
      && second.files == first.files && second.issued == []
  {
  }

  /** A miss writes nothing to the resolved file, so a key that was not cached is still not cached afterwards. */
  lemma AlbumMissStaysUncached(forceFetch: bool, search: Search, files: AlbumFiles, title: string, artist: string, year: Year)
    requires AlbumCacheKey(title, artist) !in files.resolved
    ensures var r := GetSpotifyAlbum(forceFetch, search, files, title, artist, year);
      r.result.None? ==>
      && AlbumCacheKey(title, artist) !in r.files.resolved
      && r.files.missed[AlbumCacheKey(title, artist)] == AlbumCacheKey(title, artist)
  {
  }
}

=== FILE: matcher.dfy ===
/**
 * The entity matcher: `find_spotify_track` and `find_spotify_album`.
 *
 * Each tries a fixed sequence of progressively looser searches, returns item 0
 * of the first call that answers with at least one item, and gives up with no
 * match when every call answers with nothing or when a call raises.
 */
module Matcher {
  import opened Options
  import opened Catalog
  import Text

  /** The result of a cascade together with the searches it issued, in order. */
  datatype Cascade = Cascade(found: Option<Item>, issued: seq<Query>)

  /** Run the searches of `stages` in order until one hits or raises. */
  function RunCascade(search: Search, stages: seq<Query>): (r: Cascade)
    // the calls made are a prefix of the stages, in the fixed order
    ensures |r.issued| <= |stages| && r.issued == stages[..|r.issued|]
    // every call before the last one answered with no item
    ensures forall i :: 0 <= i < |r.issued| - 1 ==> Empty(search(r.issued[i]))
    // the cascade stops early only after a hit or an exception
    ensures |r.issued| < |stages| ==> |r.issued| > 0 && !Empty(search(r.issued[|r.issued| - 1]))
    // a match is item 0 of the last call, and there is one exactly when that call hit
    ensures r.found.Some? <==> |r.issued| > 0 && Hit(search(r.issued[|r.issued| - 1]))
    ensures r.found.Some? ==> r.found.value == search(r.issued[|r.issued| - 1]).items[0]
    decreases |stages|
  {
    if |stages| == 0 then Cascade(None, [])
    else
      match search(stages[0])
      case Raised => Cascade(None, [stages[0]])
      case Results(items) =>
        if |items| > 0 then Cascade(Some(items[0]), [stages[0]])
        else
          var rest := RunCascade(search, stages[1..]);
          assert rest.issued == stages[1..][..|rest.issued|];
          Cascade(rest.found, [stages[0]] + rest.issued)
  }

  /**
   * Independent statement of the cascade's answer: once every stage before `i`
   * answered empty, a hit at `i` gives its item 0, an exception at `i` gives no
   * match, and an empty answer at `i` hands over to the remaining stages.
   */
  lemma {:induction false} CascadeFindsFirstHit(search: Search, stages: seq<Query>, i: nat)
    requires i < |stages|
    requires forall j :: 0 <= j < i ==> Empty(search(stages[j]))
    ensures RunCascade(search, stages).found ==
      if Hit(search(stages[i])) then Some(search(stages[i]).items[0])
      else if Empty(search(stages[i])) then RunCascade(search, stages[i + 1..]).found
      else None
    decreases i
  {
    if i > 0 {
      assert Empty(search(stages[0]));
      CascadeFindsFirstHit(search, stages[1..], i - 1);
      assert stages[1..][i - 1 + 1..] == stages[i + 1..];
    }
  }

  /** No stage hits and none raises: the cascade issues every stage and finds nothing. */
  lemma {:induction false} CascadeAllEmpty(search: Search, stages: seq<Query>)
    requires forall j :: 0 <= j < |stages| ==> Empty(search(stages[j]))
    ensures RunCascade(search, stages) == Cascade(None, stages)
    decreases |stages|
  {
    if |stages| > 0 {
      CascadeAllEmpty(search, stages[1..]);
      assert [stages[0]] + stages[1..] == stages;
    }
  }

  /** `find_spotify_track` cleans the title, album and artist of the track it is given, in place. */
  function CleanTrack(t: Track): (c: Track)
    ensures c.year == t.year
    ensures |c.title| <= |t.title| && |c.album| <= |t.album| && |c.artist| <= |t.artist|
    ensures Text.Trimmed(c.title) && Text.Trimmed(c.album) && Text.Trimmed(c.artist)
  {
    t.(title := Text.CleanName(t.title), album := Text.CleanName(t.album), artist := Text.CleanName(t.artist))
  }

  /** The three track searches: full, without the year, without the album. */
  function TrackStages(t: Track): seq<Query> {
    [TrackFull(t.title, t.artist, t.album, t.year), TrackNoYear(t.title, t.artist, t.album), TrackNoAlbum(t.title, t.artist)]
  }

  /** Result of `find_spotify_track`: the match, the track as it was left after the in-place cleaning, and the searches made. */
  datatype TrackLookup = TrackLookup(found: Option<Item>, cleaned: Track, issued: seq<Query>)

  function FindSpotifyTrack(search: Search, track: Track): (r: TrackLookup)
    ensures r.cleaned == CleanTrack(track)
    // at most three searches, in the order full, no-year, no-album, all on the cleaned fields
    ensures 1 <= |r.issued| <= 3 && r.issued == TrackStages(r.cleaned)[..|r.issued|]
    // every search before the last answered empty
    ensures forall i :: 0 <= i < |r.issued| - 1 ==> Empty(search(r.issued[i]))
    // a match is item 0 of the last search, and there is one exactly when that search hit
    ensures r.found.Some? <==> Hit(search(r.issued[|r.issued| - 1]))
    ensures r.found.Some? ==> r.found.value == search(r.issued[|r.issued| - 1]).items[0]
  {
    var cleaned := CleanTrack(track);
    var c := RunCascade(search, TrackStages(cleaned));
    TrackLookup(c.found, cleaned, c.issued)
  }

  /** The two album searches: with the year, without it. */
  function AlbumStages(title: string, artist: string, year: Year): seq<Query> {
    [AlbumFull(artist, title, year), AlbumNoYear(artist, title)]
  }

  /** Result of `find_spotify_album`: the match and the searches made. */
  datatype AlbumLookup = AlbumLookup(found: Option<Item>, issued: seq<Query>)

  function FindSpotifyAlbum(search: Search, title: string, artist: string, year: Year): (r: AlbumLookup)
    // at most two searches, with and then without the year, on the cleaned title and artist
    ensures 1 <= |r.issued| <= 2
    ensures r.issued == AlbumStages(Text.CleanName(title), Text.CleanName(artist), year)[..|r.issued|]
    ensures forall i :: 0 <= i < |r.issued| - 1 ==> Empty(search(r.issued[i]))
    ensures r.found.Some? <==> Hit(search(r.issued[|r.issued| - 1]))
    ensures r.found.Some? ==> r.found.value == search(r.issued[|r.issued| - 1]).items[0]
  {
    var c := RunCascade(search, AlbumStages(Text.CleanName(title), Text.CleanName(artist), year));
    AlbumLookup(c.found, c.issued)
  }

  /**
   * A track that the catalog only knows without its album: the matcher has made
   * the full, the no-year and the no-album search, in that order, and returns the
   * first item of the last.
   */
  lemma FindTrackFallsBackToNoAlbum(search: Search, track: Track)
    ensures var c := CleanTrack(track);
      && Empty(search(TrackFull(c.title, c.artist, c.album, c.year)))
      && Empty(search(TrackNoYear(c.title, c.artist, c.album)))
      && Hit(search(TrackNoAlbum(c.title, c.artist)))
      ==>
      && FindSpotifyTrack(search, track).issued == TrackStages(c)
      && FindSpotifyTrack(search, track).found == Some(search(TrackNoAlbum(c.title, c.artist)).items[0])
  {
    var c := CleanTrack(track);
    if Empty(search(TrackFull(c.title, c.artist, c.album, c.year))) && Empty(search(TrackNoYear(c.title, c.artist, c.album))) {
      CascadeFindsFirstHit(search, TrackStages(c), 2);
    }
  }

  /** The first search hits: one call, its first item. */
  lemma FindTrackFullHit(search: Search, track: Track)
    ensures var c := CleanTrack(track);
      Hit(search(TrackFull(c.title, c.artist, c.album, c.year))) ==>
      && FindSpotifyTrack(search, track).issued == [TrackFull(c.title, c.artist, c.album, c.year)]
      && FindSpotifyTrack(search, track).found == Some(search(TrackFull(c.title, c.artist, c.album, c.year)).items[0])
  {
  }

  /** No stage answered with an item before one raised. */
  ghost predicate RaisedBeforeHit(search: Search, stages: seq<Query>) {
    exists i :: 0 <= i < |stages| && search(stages[i]).Raised? && forall j :: 0 <= j < i ==> Empty(search(stages[j]))
  }

  /** A cascade finds nothing exactly when every stage answered empty, or one raised after only empty answers. */
  lemma {:induction false} CascadeMissIff(search: Search, stages: seq<Query>)
    ensures RunCascade(search, stages).found.None? <==>
      (forall j :: 0 <= j < |stages| ==> Empty(search(stages[j]))) || RaisedBeforeHit(search, stages)
    decreases |stages|
  {
    if stages != [] {
      var o := search(stages[0]);
      var tail := stages[1..];
      assert forall j :: 1 <= j < |stages| ==> stages[j] == tail[j - 1];
      if Empty(o) {
        CascadeMissIff(search, tail);
        if RaisedBeforeHit(search, tail) {
          var i :| 0 <= i < |tail| && search(tail[i]).Raised? && forall j :: 0 <= j < i ==> Empty(search(tail[j]));
          assert search(stages[i + 1]).Raised? && forall j :: 0 <= j < i + 1 ==> Empty(search(stages[j]));
        }
        if RaisedBeforeHit(search, stages) {
          var i :| 0 <= i < |stages| && search(stages[i]).Raised? && forall j :: 0 <= j < i ==> Empty(search(stages[j]));
          assert i > 0;
          assert search(tail[i - 1]).Raised? && forall j :: 0 <= j < i - 1 ==> Empty(search(tail[j]));
        }
      } else if o.Raised? {
        assert search(stages[0]).Raised?;
      } else {
        assert Hit(o);
        assert !Empty(search(stages[0]));
      }
    }
  }

  /**
   * A track search is a miss exactly when all three searches answered empty,
   * or one of them raised after only empty answers.
   */
  lemma FindTrackMissIff(search: Search, track: Track)
    ensures var s := TrackStages(CleanTrack(track));
      FindSpotifyTrack(search, track).found.None? <==>
        (forall j :: 0 <= j < 3 ==> Empty(search(s[j]))) || RaisedBeforeHit(search, s)
  {
    CascadeMissIff(search, TrackStages(CleanTrack(track)));
  }

  /** An album the catalog only knows without its year: both searches are made and the second one's first item is returned. */
  lemma FindAlbumFallsBackToNoYear(search: Search, title: string, artist: string, year: Year)
    ensures var t, a := Text.CleanName(title), Text.CleanName(artist);
      Empty(search(AlbumFull(a, t, year))) && Hit(search(AlbumNoYear(a, t))) ==>
      && FindSpotifyAlbum(search, title, artist, year).issued == AlbumStages(t, a, year)
      && FindSpotifyAlbum(search, title, artist, year).found == Some(search(AlbumNoYear(a, t)).items[0])
  {
    var t, a := Text.CleanName(title), Text.CleanName(artist);
    if Empty(search(AlbumFull(a, t, year))) {
      CascadeFindsFirstHit(search, AlbumStages(t, a, year), 1);
    }
  }
}

=== FILE: migration.dfy ===
/**
 * The program's top-level flow (after argument parsing): extract playlists
 * and albums from the source service, then create the playlists and save the
 * albums on the destination service.
 *
 * `RunAsWritten` follows the program as it stands, where a first run crashes
 * because the playlist extraction returns nothing; `Run` uses the corrected
 * extraction.
 */
module Migration {
  import opened Options
  import opened Catalog
  import opened MatchCache
  import opened LibraryBuilder
  import opened Extractor

  /** Everything kept in the state directory between runs (the credential file aside). */
  datatype State = State(
    playlistsFile: Option<seq<Playlist>>,
    albumsFile: Option<seq<Album>>,
    tracks: TrackFiles,
    albums: AlbumFiles)

  /** What the source service would answer: login success, playlists, owned songs. */
  datatype Source = Source(authenticated: bool, playlists: seq<GooglePlaylist>, songs: seq<GoogleSong>)

  /** How a run ends: exit with code 1, an uncaught error, or completion with the effects made. */
  datatype RunOutcome =
    | Aborted(code: int, state: State)
    | Crashed(state: State)
    | Finished(state: State, effects: seq<Effect>, library: set<string>)

  /** The state after an extraction step: a fetched extraction is written to its file. */
  function AfterPlaylists(st: State, e: Extracted<seq<Playlist>>): State {
    if e.Fetched? then st.(playlistsFile := Some(e.written)) else st
  }

  function AfterAlbums(st: State, e: Extracted<seq<Album>>): State {
    if e.Fetched? then st.(albumsFile := Some(e.written)) else st
  }

  /** The flow once the playlist extraction step has produced `pl`. */
  function RunFrom(cfg: Config, src: Source, search: Search, mint: nat -> string, library: set<string>, st: State, pl: Extracted<seq<Playlist>>): (r: RunOutcome)
    // a failed playlist extraction ends the run with its own exit code, before anything else
    ensures pl.Exited? ==> r == Aborted(pl.code, st)
    ensures !pl.Exited? && pl.Returned().None? ==> r.Crashed? || r.Aborted?
  {
    if pl.Exited? then Aborted(pl.code, st)
    else
      var st1 := AfterPlaylists(st, pl);
      var al := GetGoogleAlbums(cfg.forceFetch, st1.albumsFile, src.authenticated, src.songs);
      if al.Exited? then Aborted(al.code, st1)
      else
        var st2 := AfterAlbums(st1, al);
        match pl.Returned()
        case None => Crashed(st2)
        case Some(playlists) =>
          var made := CreateSpotifyPlaylists(cfg, search, st2.tracks, mint, playlists, 0);
          var saved := CreateSpotifyAlbums(cfg.forceFetch, search, st2.albums, library, al.Returned().value);
          Finished(st2.(tracks := made.files, albums := saved.matched.files), made.effects + PutRequests(saved.put.calls), saved.put.library)
  }

  /** The program as written. */
  function RunAsWritten(cfg: Config, src: Source, search: Search, mint: nat -> string, library: set<string>, st: State): (r: RunOutcome)
    // the destination service is reached only when the playlists come from an existing file
    ensures r.Finished? ==> UseFile(cfg.forceFetch, st.playlistsFile)
    // every run that must fetch the playlists aborts or crashes
    ensures !UseFile(cfg.forceFetch, st.playlistsFile) ==> r.Aborted? || r.Crashed?
  {
    RunFrom(cfg, src, search, mint, library, st, GetGooglePlaylistsAsWritten(cfg.forceFetch, st.playlistsFile, src.authenticated, src.playlists))
  }

  /** The program with the corrected playlist extraction. */
  function Run(cfg: Config, src: Source, search: Search, mint: nat -> string, library: set<string>, st: State): (r: RunOutcome)
    ensures !r.Crashed?
    ensures r.Aborted? ==> r.code == 1
    // when a run finishes, both extraction files exist
    ensures r.Finished? ==> r.state.playlistsFile.Some? && r.state.albumsFile.Some?
  {
    RunFrom(cfg, src, search, mint, library, st, GetGooglePlaylists(cfg.forceFetch, st.playlistsFile, src.authenticated, src.playlists))
  }

  /**
   * As written, a first run that logs in and finds playlists crashes before
   * touching the destination service, leaving only the extraction files behind.
   */
  lemma FirstRunAsWrittenCrashes(cfg: Config, src: Source, search: Search, mint: nat -> string, library: set<string>, st: State)
    requires st.playlistsFile.None?
    requires src.authenticated
    requires CleanPlaylists(src.playlists) != []
    ensures var r := RunAsWritten(cfg, src, search, mint, library, st);
      && r.Crashed?
      && r.state.playlistsFile == Some(CleanPlaylists(src.playlists))
      && r.state.albumsFile.Some?
      && (st.albumsFile.None? ==> r.state.albumsFile == Some(DistinctAlbums(src.songs)))
      && r.state.tracks == st.tracks && r.state.albums == st.albums
  {
  }

  /** Corrected, no run crashes: it exits with code 1 exactly when an extraction step must fetch and cannot. */
  lemma RunNeverCrashes(cfg: Config, src: Source, search: Search, mint: nat -> string, library: set<string>, st: State)
    ensures var r := Run(cfg, src, search, mint, library, st);
      && !r.Crashed?
      && (r.Aborted? <==>
            || (!UseFile(cfg.forceFetch, st.playlistsFile) && (!src.authenticated || CleanPlaylists(src.playlists) == []))
            || (!UseFile(cfg.forceFetch, st.albumsFile) && !src.authenticated))
      && (r.Aborted? ==> r.code == 1)
  {
    var pl := GetGooglePlaylists(cfg.forceFetch, st.playlistsFile, src.authenticated, src.playlists);
    if !pl.Exited? {
      assert AfterPlaylists(st, pl).albumsFile == st.albumsFile;
    }
  }

  /**
   * Corrected, a first run that logs in and finds playlists creates the first
   * extracted playlist on the destination service before anything else.
   */
  lemma FirstRunCreatesFirstPlaylist(cfg: Config, src: Source, search: Search, mint: nat -> string, library: set<string>, st: State)
    requires st.playlistsFile.None? && st.albumsFile.None?
    requires src.authenticated
    requires CleanPlaylists(src.playlists) != []
    ensures var r := Run(cfg, src, search, mint, library, st);
      && r.Finished?
      && r.state.playlistsFile == Some(CleanPlaylists(src.playlists))
      && r.state.albumsFile == Some(DistinctAlbums(src.songs))
      && |r.effects| > 0 && r.effects[0] == CreatePlaylist(cfg.user, CleanPlaylists(src.playlists)[0].name, false)
  {
  }

  /**
   * Corrected, a finished run creates every extracted playlist exactly once, in
   * extraction order (saving albums creates none), and leaves the library as
   * the starting library plus the ids of the albums its add requests carried.
   */
  lemma RunCreatesEveryPlaylist(cfg: Config, src: Source, search: Search, mint: nat -> string, library: set<string>, st: State)
    ensures var r := Run(cfg, src, search, mint, library, st);
      var pl := GetGooglePlaylists(cfg.forceFetch, st.playlistsFile, src.authenticated, src.playlists);
      r.Finished? ==>
        && !pl.Exited?
        && CreatedNames(r.effects) == NamesOf(pl.Returned().value)
        && r.library == library + IdsOf(SavedAlbums(r.effects))
  {
    var pl := GetGooglePlaylists(cfg.forceFetch, st.playlistsFile, src.authenticated, src.playlists);
    var r := Run(cfg, src, search, mint, library, st);
    if r.Finished? {
      var st1 := AfterPlaylists(st, pl);
      var al := GetGoogleAlbums(cfg.forceFetch, st1.albumsFile, src.authenticated, src.songs);
      var st2 := AfterAlbums(st1, al);
      var playlists := pl.Returned().value;
      var made := CreateSpotifyPlaylists(cfg, search, st2.tracks, mint, playlists, 0);
      var saved := CreateSpotifyAlbums(cfg.forceFetch, search, st2.albums, library, al.Returned().value);
      var puts := PutRequests(saved.put.calls);
      assert r.effects == made.effects + puts && r.library == saved.put.library;
      CreatedNamesAppend(made.effects, puts);
      PlaylistsCreatedInOrder(cfg, search, st2.tracks, mint, playlists, 0);
      PutRequestsCreateNothing(saved.put.calls);
      SavedAlbumsAppend(made.effects, puts);
      PlaylistsSaveNoAlbums(cfg, search, st2.tracks, mint, playlists, 0);
      LibraryAfterAddsSaved(library, saved.put.calls);
      assert SavedAlbums(r.effects) == SavedAlbums(puts);
    }
  }
}

=== FILE: options.dfy ===
/** The optional value the model uses where the program returns `None`. */
module Options {

  datatype Option<+T> = None | Some(value: T)
}

=== FILE: text.dfy ===
/**
 * Whitespace handling and the track/album name normaliser `clean_name`.
 *
 * `clean_name` applies `re.match(r'(.*)\s+(\(|feat)', name)` and strips the
 * result. `re.match` anchors the pattern at the start only; the greedy `(.*)`
 * takes the longest prefix (it cannot cross a line break) after which one or
 * more whitespace characters are followed by `(` or `feat`.
 */
module Text {
  import opened Options

  /** Whitespace as Python's `str.isspace()` (and so `str.strip()` and the Unicode `\s` of `re`) define it. */
  predicate IsSpace(c: char) {
    || c == ' '
    || ('\t' <= c <= '\r')
    || ('\U{1c}' <= c <= '\U{1f}')
    || c == '\U{85}' || c == '\U{a0}' || c == '\U{1680}'
    || ('\U{2000}' <= c <= '\U{200a}')
    || c == '\U{2028}' || c == '\U{2029}' || c == '\U{202f}' || c == '\U{205f}' || c == '\U{3000}'
  }

  predicate AllSpace(s: string) {
    forall i :: 0 <= i < |s| ==> IsSpace(s[i])
  }

  /** Neither end of `s` is whitespace. */
  predicate Trimmed(s: string) {
    s == [] || (!IsSpace(s[0]) && !IsSpace(s[|s| - 1]))
  }

  /** Length of the whitespace run that starts `s`. */
  function LeadingSpace(s: string): (n: nat)
    ensures n <= |s|
    ensures forall i :: 0 <= i < n ==> IsSpace(s[i])
    ensures n < |s| ==> !IsSpace(s[n])
    decreases |s|
  {
    if |s| > 0 && IsSpace(s[0]) then 1 + LeadingSpace(s[1..]) else 0
  }

  /** Length of the whitespace run that ends `s`. */
  function TrailingSpace(s: string): (n: nat)
    ensures n <= |s|
    ensures forall i :: |s| - n <= i < |s| ==> IsSpace(s[i])
    ensures n < |s| ==> !IsSpace(s[|s| - n - 1])
    decreases |s|
  {
    if |s| > 0 && IsSpace(s[|s| - 1]) then 1 + TrailingSpace(s[..|s| - 1]) else 0
  }

  /** Python's `str.strip()` with no argument. */
  function Strip(s: string): (r: string)
    ensures |r| <= |s|
    ensures Trimmed(r)
    ensures LeadingSpace(s) + |r| <= |s|
    ensures r == s[LeadingSpace(s)..LeadingSpace(s) + |r|]
    ensures AllSpace(s[LeadingSpace(s) + |r|..])
  {
    var a := LeadingSpace(s);
    var rest := s[a..];
    var b := TrailingSpace(rest);
    var r := rest[..|rest| - b];
    assert s[a + |r|..] == rest[|rest| - b..];
    assert r != [] ==> r[0] == s[a] && r[|r| - 1] == rest[|rest| - b - 1];
    r
  }

  /** The whitespace run before a non-space character is exactly the given prefix. */
  lemma {:induction false} LeadingSpaceOf(p: string, t: string)
    requires AllSpace(p)
    requires t == [] || !IsSpace(t[0])
    ensures LeadingSpace(p + t) == |p|
    decreases |p|
  {
    if p != [] {
      assert (p + t)[1..] == p[1..] + t;
      LeadingSpaceOf(p[1..], t);
    } else {
      assert p + t == t;
    }
  }

  /** The whitespace run after a non-space character is exactly the given suffix. */
  lemma {:induction false} TrailingSpaceOf(t: string, q: string)
    requires AllSpace(q)
    requires t == [] || !IsSpace(t[|t| - 1])
    ensures TrailingSpace(t + q) == |q|
    decreases |q|
  {
    if q != [] {
      var q' := q[..|q| - 1];
      assert (t + q)[..|t + q| - 1] == t + q';
      TrailingSpaceOf(t, q');
    } else {
      assert t + q == t;
    }
  }

  lemma AllSpaceConcat(a: string, b: string)
    requires AllSpace(a) && AllSpace(b)
    ensures AllSpace(a + b)
  {
    forall i | 0 <= i < |a + b| ensures IsSpace((a + b)[i]) {
      if i < |a| { assert (a + b)[i] == a[i]; } else { assert (a + b)[i] == b[i - |a|]; }
    }
  }

  /** Stripping is determined by the decomposition: surrounding whitespace around a trimmed core. */
  lemma StripUnique(p: string, core: string, q: string)
    requires AllSpace(p) && AllSpace(q) && Trimmed(core)
    ensures Strip(p + core + q) == core
  {
    var s := p + core + q;
    if core == [] {
      assert s == p + q;
      assert AllSpace(s) by {
        forall k | 0 <= k < |s| ensures IsSpace(s[k]) {
          if k < |p| { assert s[k] == p[k]; } else { assert s[k] == q[k - |p|]; }
        }
      }
      LeadingSpaceOf(s, []);
      assert s + [] == s;
    } else {
      LeadingSpaceOf(p, core + q);
      assert s == p + (core + q);
      assert s[|p|..] == core + q;
      TrailingSpaceOf(core, q);
    }
  }

  /** `s` is its stripped core with whitespace on both sides. */
  lemma StripDecompose(s: string) returns (i: nat)
    ensures i + |Strip(s)| <= |s|
    ensures s == s[..i] + Strip(s) + s[i + |Strip(s)|..]
    ensures AllSpace(s[..i]) && AllSpace(s[i + |Strip(s)|..])
  {
    i := LeadingSpace(s);
    var r := Strip(s);
    assert s == s[..i] + s[i..i + |r|] + s[i + |r|..];
  }

  lemma StripIdempotent(s: string)
    ensures Strip(Strip(s)) == Strip(s)
  {
    StripUnique([], Strip(s), []);
    assert [] + Strip(s) + [] == Strip(s);
  }

  /** `s[m..]` starts with the alternative `\(|feat` of the pattern. */
  predicate MarkerAt(s: string, m: nat) {
    || (m < |s| && s[m] == '(')
    || (m + 4 <= |s| && s[m..m + 4] == "feat")
  }

  /** `\s+(\(|feat)` matches at position `k` of `s` (the engine may backtrack inside the run). */
  predicate SpaceRunThenMarker(s: string, k: nat)
    decreases |s| - k
  {
    k < |s| && IsSpace(s[k]) && (MarkerAt(s, k + 1) || SpaceRunThenMarker(s, k + 1))
  }

  /** A whitespace character immediately followed by `(` or `feat`. */
  predicate CutPoint(s: string, k: nat) {
    k < |s| && IsSpace(s[k]) && MarkerAt(s, k + 1)
  }

  /** Where the first line of `s` ends: `.` does not match a line break. */
  function LineEnd(s: string): (e: nat)
    ensures e <= |s|
    ensures forall i :: 0 <= i < e ==> s[i] != '\n'
    ensures e < |s| ==> s[e] == '\n'
  {
    if |s| == 0 || s[0] == '\n' then 0 else 1 + LineEnd(s[1..])
  }

  /** Backtracking of the greedy `(.*)`: the longest admissible prefix length first, one character less each time. */
  function GreedyCut(s: string, k: nat): (r: Option<nat>)
    requires k <= |s|
    ensures r.Some? ==> r.value <= k && SpaceRunThenMarker(s, r.value)
    ensures r.Some? ==> forall j :: r.value < j <= k ==> !SpaceRunThenMarker(s, j)
    ensures r.None? ==> forall j :: 0 <= j <= k ==> !SpaceRunThenMarker(s, j)
  {
    if SpaceRunThenMarker(s, k) then Some(k)
    else if k == 0 then None
    else GreedyCut(s, k - 1)
  }

  /** Length of group 1 when `re.match` succeeds. */
  function MatchCut(s: string): Option<nat> {
    GreedyCut(s, LineEnd(s))
  }

  /** `clean_name`: keep what precedes the last "(…" or "feat…" clause, then strip. */
  function CleanName(name: string): (r: string)
    ensures |r| <= |name|
    ensures Trimmed(r)
  {
    match MatchCut(name)
    case Some(k) => Strip(name[..k])
    case None => Strip(name)
  }

  /** A match at `k` of the whitespace-run pattern always ends at a cut point at or after `k`. */
  lemma {:induction false} RunEndsAtCutPoint(s: string, k: nat) returns (m: nat)
    requires SpaceRunThenMarker(s, k)
    ensures k <= m && CutPoint(s, m)
    decreases |s| - k
  {
    if MarkerAt(s, k + 1) {
      m := k;
    } else {
      m := RunEndsAtCutPoint(s, k + 1);
    }
  }

  /** The cut of a newline-free name is its last cut point. */
  lemma MatchCutIsLastCutPoint(name: string, k: nat)
    requires '\n' !in name
    requires CutPoint(name, k)
    requires forall j :: k < j < |name| ==> !CutPoint(name, j)
    ensures MatchCut(name) == Some(k)
  {
    assert LineEnd(name) == |name|;
    var r := MatchCut(name);
    assert SpaceRunThenMarker(name, k);
    assert r.Some?;
    var c := r.value;
    if c > k {
      var m := RunEndsAtCutPoint(name, c);
      assert false;
    }
  }

  /** No whitespace followed by `(` or `feat`: the name is only stripped. */
  lemma CleanNameWithoutMarker(name: string)
    requires forall j :: 0 <= j < |name| ==> !CutPoint(name, j)
    ensures CleanName(name) == Strip(name)
  {
    if MatchCut(name).Some? {
      var m := RunEndsAtCutPoint(name, MatchCut(name).value);
      assert false;
    }
  }

  /** Otherwise the name is cut before its last whitespace that precedes `(` or `feat`. */
  lemma CleanNameCutsAtLastMarker(name: string, k: nat)
    requires '\n' !in name
    requires CutPoint(name, k)
    requires forall j :: k < j < |name| ==> !CutPoint(name, j)
    ensures CleanName(name) == Strip(name[..k])
    ensures |CleanName(name)| <= k
  {
    MatchCutIsLastCutPoint(name, k);
  }

  /** Trailing whitespace does not change the stripped result. */
  lemma StripAppendSpace(u: string, w: string)
    requires AllSpace(w)
    ensures Strip(u + w) == Strip(u)
  {
    var r := Strip(u);
    var i := StripDecompose(u);
    var p := u[..i];
    var tail := u[i + |r|..];
    AllSpaceConcat(tail, w);
    assert u + w == p + r + (tail + w);
    StripUnique(p, r, tail + w);
  }

  /** Cutting at the start of the whitespace run instead of its end gives the same result. */
  lemma CutAnywhereInRun(name: string, j: nat, k: nat)
    requires j <= k <= |name|
    requires AllSpace(name[j..k])
    ensures Strip(name[..k]) == Strip(name[..j])
  {
    assert name[..k] == name[..j] + name[j..k];
    StripAppendSpace(name[..j], name[j..k]);
  }

  /** The last cut point of "A (x) B (y)" is the blank before "(y)". */
  lemma FirstPassCutPoint(s: string)
    requires s == "A (x) B (y)"
    ensures '\n' !in s && CutPoint(s, 7)
    ensures forall j :: 7 < j < |s| ==> !CutPoint(s, j)
  {
    assert CutPoint(s, 7) by { assert s[7] == ' ' && s[8] == '('; }
    assert forall j :: 7 < j < |s| ==> !CutPoint(s, j) by {
      assert !IsSpace(s[8]) && !IsSpace(s[9]) && !IsSpace(s[10]);
    }
  }

  /** `clean_name` removes only the last clause of "A (x) B (y)"... */
  lemma CleanNameFirstPass(s: string)
    requires s == "A (x) B (y)"
    ensures CleanName(s) == "A (x) B"
  {
    FirstPassCutPoint(s);
    CleanNameCutsAtLastMarker(s, 7);
    assert Strip(s[..7]) == "A (x) B" by {
      assert s[..7] == [] + "A (x) B" + [];
      StripUnique([], "A (x) B", []);
    }
  }

  /** The only cut point of "A (x) B" is the blank before "(x)". */
  lemma SecondPassCutPoint(t: string)
    requires t == "A (x) B"
    ensures '\n' !in t && CutPoint(t, 1)
    ensures forall j :: 1 < j < |t| ==> !CutPoint(t, j)
  {
    assert CutPoint(t, 1) by { assert t[1] == ' ' && t[2] == '('; }
    assert !CutPoint(t, 5) by { assert t[6] == 'B' && |t| == 7; }
    assert forall j | 1 < j < |t| && j != 5 :: !CutPoint(t, j) by {
      assert !IsSpace(t[2]) && !IsSpace(t[3]) && !IsSpace(t[4]) && !IsSpace(t[6]);
    }
  }

  /** ... so a second application changes the result again: `clean_name` is not idempotent. */
  lemma CleanNameSecondPass(t: string)
    requires t == "A (x) B"
    ensures CleanName(t) == "A"
  {
    SecondPassCutPoint(t);
    CleanNameCutsAtLastMarker(t, 1);
    assert t[..1] == "A";
  }
}
